=== FILE: README.md ===
# NFS client buffer cache, shared page and boot device names

A Dafny model of three pieces of a BSD kernel and boot loader.

- **The NFS client's block I/O layer** (`sys/nfsclient/nfs_bio.c`). It models the bookkeeping that `nfs_bioread`, `nfs_write`, `nfs_doio`, `nfs_asyncio`, `nfs_getpages`, `nfs_putpages`, `nfs_vinvalbuf` and `nfs_getcacheblk` do on cache blocks:
  - block sizing at end-of-file;
  - the valid and dirty byte ranges of a buffer and how a write merges into them;
  - the choice between a synchronous, an asynchronous and a delayed write;
  - the buffer state after a read or a write RPC, including the UNSTABLE / COMMIT protocol of section 3.3.7 of RFC 1813;
  - the dispatch of a buffer to an nfsiod;
  - the per-page results of the pager;
  - the single-flusher flag machine;
  - the modification-time polling and lease checks that decide when cached data must be thrown away.

  Every RPC (read, write, getattr, getlease) and every sleep outcome is a parameter: the model says what the code does with each possible answer.
- **The shared page** (`sys/kern/kern_sharedpage.c`). It models the aligned bump allocator that hands out space on the page mapped into every process, and the fill that copies data there. It also models `timehands_update`, which publishes time data into a ring of `VDSO_TH_NUM` slots guarded by generation numbers. The stores of an update are modelled in program order, and the model shows that they keep the protocol a lock-free reader relies on.
- **The Open Firmware loader's device names** (`sys/boot/ofw/libofw/devicename.c`). It models:
  - the parser for `disk<unit>[s<slice>][<partition>]:` and `net<unit>:` against the device switch;
  - the choice between an explicit specification and `currdev`;
  - the validation of a new `currdev`;
  - the formatter;
  - the firmware-path parser `ofw_parseofwdev`.

  The parser and formatter are tied together by round-trip lemmas in both directions on canonical text.

Modules: `Results` (Option and Result), `NfsBuf` (records, constants, block arithmetic), `NfsRead`, `NfsWrite`, `NfsDoio`, `NfsAsync`, `NfsPages`, `NfsCoherency`, `SharedPage`, `Timehands`, `NumText` (the `strtol` and `%d` conversions the device-name code uses) and `DeviceName`.

Header constants come from headers that are not part of this model. They are stated as the values those headers define:
- `DEV_BSIZE` 512;
- `PAGE_SIZE` 4096;
- `NFS_MAXASYNCDAEMON` 20;
- `VDSO_TH_NUM` 4;
- `MAXPARTITIONS` 8;
- `EINTR` 4, `EIO` 5, `EINVAL` 22 and `EFBIG` 27.

The loader's own error codes (`EUNIT`, `ESLICE`, `EPART`, `ENOENT`) are a datatype, because their values live in `stand.h`, which is not part of this model.

The comment above the polling code in `nfs_bioread` (`nfs_bio.c:313-318`) says that a file written locally has its cached data flushed. The code below it flushes only directories (`nfs_bio.c:332-339`): for a modified regular file it only forces a fresh getattr. `NfsCoherency.PollCheck` follows the code: it flushes a modified directory, and for a modified regular file only refetches the attributes.

## Model

| member | source | states |
|---|---|---|
| NfsBuf.RoundUpDev | sys/nfsclient/nfs_bio.c:445 | the result is the least multiple of DEV_BSIZE at or above its argument |
| NfsBuf.CacheBlkno | sys/nfsclient/nfs_bio.c:926-930 | for a regular file, device block `blkno` addresses the same byte as logical block `lbn` of `biosize` bytes (blkno·512 = lbn·biosize); other vnode types keep the block number they had |
| NfsBuf.ClipDirty | sys/nfsclient/nfs_bio.c:787-788 | after clipping, dirty data never extends past end-of-file; the dirty end only moves when it did, and then exactly to end-of-file; nothing else in the buffer changes |
| NfsRead.ReadBufSize | sys/nfsclient/nfs_bio.c:440-446 | the block buffer is a positive multiple of DEV_BSIZE, never larger than biosize; it covers every byte of the file in the block; it is at most one sector longer than needed in the block holding end-of-file; it is a full biosize elsewhere |
| NfsBuf.ToInt32 | sys/nfsclient/nfs_bio.c:1192 | storing a value in a C `int` keeps it when it fits and otherwise gives the value in the `int` range congruent to it modulo 2^32 |
| NfsRead.ReadCopyStep | sys/nfsclient/nfs_bio.c:483-508 | with the full-width `off_t` distance to end-of-file (line 288), and the later `int` store of `n = diff` taken to keep its value: a positive copy length stays inside the buffer, the request, the file and the valid range; on a cached block it is exactly what was wanted, and on any block it is the wanted length cut at the end of the valid range; the buffer is discarded and refetched exactly when the wanted bytes are not all valid; it panics exactly when such a buffer is dirty but not delayed-write; reading at or past end-of-file copies nothing |
| NfsDoio.ReadThenCopy | sys/nfsclient/nfs_bio.c:483-508 | on a block whose read just succeeded, however short the reply, the copy step copies exactly the wanted length, because the read left every byte before end-of-file valid |
| NfsRead.WantedAsWritten | sys/nfsclient/nfs_bio.c:483-490 | with the comparison done on the full-width `diff` and only the assignment `n = diff` stored in an `int`: the copy length agrees with Wanted unless the request starts more than 2^31 bytes past end-of-file, and when it differs it is a value in the `int` range |
| NfsRead.ReadCopyStepAsWritten | sys/nfsclient/nfs_bio.c:483-508 | with that `int` store, the step agrees with ReadCopyStep unless the request starts more than 2^31 bytes past end-of-file |
| NfsRead.FarPastEndWraps | sys/nfsclient/nfs_bio.c:488-490 | for an empty file read 2^32 - 10 bytes in, on a cached block valid to its end, the full-width clip copies nothing while the `int` store of `n = diff` yields a copy of 10 bytes |
| NfsRead.ReadAheadBlocks | sys/nfsclient/nfs_bio.c:411-413 | read-ahead asks for at most `nm_readahead` blocks, the ones directly after the current block, each starting before end-of-file; it stops early only at end-of-file, and does nothing without async daemons |
| NfsRead.ReadAheadFrom | sys/nfsclient/nfs_bio.c:412-413 | a run of consecutive blocks from `next`, none past end-of-file, shorter than asked only when the next block would start at or past end-of-file |
| NfsRead.ReadAheadBlock | sys/nfsclient/nfs_bio.c:414-430 | a block that is in core, cached or delayed-write is never touched; every other block gets a read-ahead started, marked B_ASYNC and cleared of B_DONE; B_INVAL is added only when nfs_asyncio refused it, and then B_INVAL and B_ERROR both are |
| NfsWrite.WriteEntryCheck | sys/nfsclient/nfs_bio.c:692-697 | non-regular files get EIO; a latched write error is returned once and the latch cleared; otherwise the write is admitted with the node unchanged |
| NfsWrite.WriteArgsCheck | sys/nfsclient/nfs_bio.c:716-730 | the write proceeds exactly when the offset is non-negative, the end is within the maximum file size, and (for a non-empty write by a process) within its file-size limit; the errors are EINVAL for a negative offset and EFBIG otherwise; a successful check asks for the copy loop exactly when the write is not empty |
| NfsWrite.ChunkAt | sys/nfsclient/nfs_bio.c:764-766 | the next piece starts at the offset, lies in one block, is non-empty and at most the rest of the request, and is shorter than the request only when it reaches the end of its block |
| NfsWrite.WriteChunks | sys/nfsclient/nfs_bio.c:764-891 | the pieces the write loop visits tile the request exactly: consecutive, non-empty, each within a block, total length = resid, and every piece but the last ends on a block boundary |
| NfsWrite.WriteBufSizeMatchesRead | sys/nfsclient/nfs_bio.c:773-777 | for a block that starts before end-of-file, the write path sizes it the same way as the read path, and the size is in (0, biosize] |
| NfsWrite.ExtendSize | sys/nfsclient/nfs_bio.c:768-772 | the file size grows to cover the write and never shrinks; NMODIFIED is set when it grew |
| NfsWrite.MergeWrite | sys/nfsclient/nfs_bio.c:841-867 | the new dirty range is exactly the union of the old one and the written bytes; every dirty byte is valid; every valid byte was valid before or is dirty; a valid range disjoint from the dirty one is replaced by it; a valid range that meets or touches the dirty one becomes exactly their union, so no valid byte is lost; B_NEEDCOMMIT is cleared; nothing else changes |
| NfsWrite.WriteBlock | sys/nfsclient/nfs_bio.c:768-890 | the file size covers the write; the old dirty range is pushed first exactly when the write is not contiguous with it; a failed copy sets B_ERROR and keeps the dirty range; a completed write makes the dirty range the union, inside the valid range and not past end-of-file; the write is synchronous exactly for a non-cachable lease or IO_SYNC, asynchronous exactly when it fills the block on a non-lease mount, delayed otherwise; B_INVAL is added only for a synchronous IO_INVAL write |
| NfsDoio.ReadDone | sys/nfsclient/nfs_bio.c:1182-1201 | with the intended full-width `len`: after a successful read the valid range starts at 0 and covers everything transferred; a short read extends it past the data exactly when the file continues there (a hole zero-filled up to end-of-file or the buffer end); an error sets B_ERROR and leaves the ranges alone |
| NfsDoio.ReadDoneAsWritten | sys/nfsclient/nfs_bio.c:1190-1199 | with `len` an `int`: it agrees with ReadDone whenever the distance from the end of the data to end-of-file fits in 32 signed bits, and always keeps the valid range between the transferred data and the buffer end |
| NfsDoio.ReadDoneTruncatesLen | sys/nfsclient/nfs_bio.c:1192-1198 | when the file continues 2^32 + 100 bytes past a short read only 100 hole bytes become valid, and at 2^31 + 5 bytes none do, where the full-width distance makes the whole buffer valid |
| NfsDoio.RequestedMode | sys/nfsclient/nfs_bio.c:1253-1256 | UNSTABLE is requested exactly for an asynchronous buffer without B_NEEDCOMMIT, B_NOCACHE or B_CLUSTER; FILE_SYNC otherwise |
| NfsDoio.WriteDone | sys/nfsclient/nfs_bio.c:1240-1319 | with nothing dirty no RPC is made; B_NEEDCOMMIT is set exactly when the server took the data UNSTABLE; an interrupted or uncommitted write stays dirty with its range (delayed-write unless paging, B_EINTR if synchronous); otherwise the dirty range is emptied, and an error is latched on the node with NWRITEERR; the valid range is never changed |
| NfsDoio.WriteErrorReportedOnce | sys/nfsclient/nfs_bio.c:1302-1306 | after an asynchronous write fails, the next nfs_write returns exactly that error, and the write after it is admitted |
| NfsAsync.FirstIdleFrom | sys/nfsclient/nfs_bio.c:1025-1040 | the nfsiod chosen is the lowest-numbered idle one; None means none is idle |
| NfsAsync.Again | sys/nfsclient/nfs_bio.c:1020-1113 | the request is refused exactly when no nfsiod is idle and none serves the mount; otherwise the first idle daemon (if any) is bound to the mount, and the buffer is queued at the tail exactly when the queue is below 2·nfs_numasync, else the caller must wait |
| NfsAsync.Submit | sys/nfsclient/nfs_bio.c:1016-1017 | with no async daemons EIO is returned at once; a queued buffer is appended to the mount's queue, which was below its bound; a waiting caller leaves the queue unchanged |
| NfsAsync.AfterWake | sys/nfsclient/nfs_bio.c:1066-1089 | an interrupted sleep returns EINTR; a mount that lost all its daemons starts over; otherwise the buffer is queued exactly when the queue has drained below its bound |
| NfsAsync.SubmitKeepsQueueBounded | sys/nfsclient/nfs_bio.c:1066-1106 | the queue length counter keeps matching the queue and never exceeds 2·nfs_numasync |
| NfsAsync.SubmitBindsFirstIdle | sys/nfsclient/nfs_bio.c:1025-1040 | when daemon i is the first idle one, exactly slot i is bound to this mount and the mount's daemon count goes up by one |
| NfsPages.GetPages | sys/nfsclient/nfs_bio.c:138-188 | on total failure every page but the requested one is freed and the pager gets an error; otherwise a page is fully valid exactly when the transfer covered it, the page holding the end of the data is valid to the next sector boundary past it, later pages are marked with a non-positive length, and after a partial error every page but the requested one is freed |
| NfsPages.PutPages | sys/nfsclient/nfs_bio.c:224-272 | the stability follows the pager's sync flag; page i is reported OK exactly when the write succeeded and wrote a byte of it, otherwise AGAIN; exactly the pages reported OK are marked clean; the pager gets page 0's status; commits are cleared only on a successful write whose verifier changed |
| NfsCoherency.VinvalbufStart | sys/nfsclient/nfs_bio.c:948-978 | a doomed vnode returns at once; a caller finding a flush in progress asks to be woken and waits; otherwise it becomes the flusher |
| NfsCoherency.FlushLoop | sys/nfsclient/nfs_bio.c:979-990 | the loop ends at the first attempt that succeeds or, on an interruptible call, fails with a signal pending: it reports success exactly when that attempt succeeded and EINTR exactly when it was the signalled failure of an interruptible call; it runs out only if every attempt failed |
| NfsCoherency.VinvalbufFinish | sys/nfsclient/nfs_bio.c:980-997 | both flush flags are cleared and waiters are woken exactly when one asked; NMODIFIED is cleared exactly when the flush completed; EINTR is returned when interrupted; no other node state changes |
| NfsCoherency.Vinvalbuf | sys/nfsclient/nfs_bio.c:940-999 | a caller sleeps exactly when another flush is in progress; the only error is EINTR, and only for an interruptible call on an interruptible mount; a completed flush leaves the file unmodified and no flush in progress |
| NfsCoherency.SingleFlusher | sys/nfsclient/nfs_bio.c:967-997 | while one caller flushes, any other must wait; once it finishes, the next caller can flush |
| NfsCoherency.PollCheck | sys/nfsclient/nfs_bio.c:330-358 | lease mounts skip polling; a modified file that is neither regular nor a directory panics; a read proceeds only with fresh attributes and adopts the server's mtime; buffers are invalidated for a modified directory or a changed mtime, and an unchanged clean file is left alone; a failure never adopts the mtime and keeps what was done before it: a modified directory whose flush completed stays invalidated and unmodified when the getattr then fails, an interrupted flush leaves NMODIFIED as it was, and a getattr error on any other path leaves the node unchanged; a check fails exactly on a getattr error or when a flush it performs (of a modified directory, or of a clean file whose mtime changed) is interrupted, and then it fails with EINTR |
| NfsCoherency.PollSettles | sys/nfsclient/nfs_bio.c:330-358 | after a check that proceeds, a second check seeing the same modification time proceeds without invalidating and leaves the node unchanged |
| NfsCoherency.RenewLease | sys/nfsclient/nfs_bio.c:366-370 | getlease is retried while it answers EXPIRED; the result is the first other reply |
| NfsCoherency.LeaseCheck | sys/nfsclient/nfs_bio.c:364-386 | a stale lease is renewed, and its error returned with the node unchanged; cached data is flushed and the revision synced when the lease revision moved, the file is non-cachable, or (for reads) a modified directory; a valid lease flushes only a modified directory on read; when that flush is interrupted the node keeps the renewed lease revision but the buffers' old revision, and stays modified as it was; after a granted renewal, and with a valid lease, the check fails exactly when the flush it performs is interrupted |
| NfsCoherency.InterruptedRenewalKeepsStaleBuffers | sys/nfsclient/nfs_bio.c:364-386 | a renewal that moves the revision followed by an interrupted flush leaves the lease and buffer revisions apart, and the next read under the still-valid lease proceeds on the old buffers without invalidating |
| SharedPage.RoundUp | sys/kern/kern_sharedpage.c:69 | the result is the least multiple of `align` at or above the free offset |
| SharedPage.Alloc | sys/kern/kern_sharedpage.c:64-75 | the allocation fails (-1, allocator unchanged) exactly when the aligned region would reach the end of the page; on success it returns the first aligned offset at or after the free offset, the region lies strictly inside the page, and the free offset moves to its end |
| SharedPage.ExactFillRefused | sys/kern/kern_sharedpage.c:70-71 | a request that would end exactly at the end of the page is refused |
| SharedPage.AllocAllDisjoint | sys/kern/kern_sharedpage.c:69-73 | over any sequence of requests, granted regions start at or after the initial free offset, lie inside the page, and each ends at or before every later granted region starts |
| SharedPage.Write | sys/kern/kern_sharedpage.c:57-62 | the data appears at the given offset and every other byte of the page is unchanged |
| SharedPage.Fill | sys/kern/kern_sharedpage.c:88-99 | the allocation decides; data is written only on success, into the granted region only, and bytes handed out earlier are never overwritten |
| Timehands.NextSlot | sys/kern/kern_sharedpage.c:135-137 | the slot index advances cyclically modulo VDSO_TH_NUM and never stays on the same slot |
| Timehands.NextGen | sys/kern/kern_sharedpage.c:138-139 | the 32-bit generation increments, wrapping to 1 and never to 0 |
| Timehands.UpdateTrace | sys/kern/kern_sharedpage.c:133-145 | the six successive states of the timekeep area across the update's stores, all with VDSO_TH_NUM slots |
| Timehands.Update | sys/kern/kern_sharedpage.c:123-146 | the update keeps the slot invariant (only the current slot has a nonzero generation, and it equals the ABI's); it publishes the next slot with a nonzero generation; the new time data goes in only when enabled; no other slot's data changes |
| Timehands.UpdateIsSeqlock | sys/kern/kern_sharedpage.c:134-145 | no store of the update changes a slot's time data unless that slot's generation is zero before and after the store |
| Timehands.AtMostOnePublished | sys/kern/kern_sharedpage.c:134-145 | at every intermediate state at most one slot carries a nonzero generation |
| Timehands.Push | sys/kern/kern_sharedpage.c:189-190 | an ABI without a timekeep area is left alone; otherwise it is updated and the slot invariant is kept |
| NumText.Strtol | sys/boot/ofw/libofw/devicename.c:116 | strtol consumes characters exactly when the text starts with a digit and always consumes the whole maximal digit run; in base 10 the value is that decimal run; in base 0, `0x` plus a hexadecimal digit reads the hexadecimal run after the prefix, another leading `0` the octal run, and anything else the decimal run |
| NumText.ItoaMeaning | sys/boot/ofw/libofw/devicename.c:227-229 | `%d` writes a minus sign exactly for a negative number, then a non-empty run of decimal digits whose value is the magnitude, with no leading zero unless the number is 0 |
| NumText.ScanItoa10 | sys/boot/ofw/libofw/devicename.c:116-123 | base-10 strtol reads back what `%d` wrote for a non-negative number and stops right after it |
| NumText.ScanItoa0 | sys/boot/ofw/libofw/devicename.c:154 | base-0 strtol reads the same number back, unless an `x` follows a zero |
| DeviceName.FirstMatch | sys/boot/ofw/libofw/devicename.c:94-102 | the chosen entry is the first one whose name is a prefix of the spec; None exactly when no name is |
| DeviceName.FirstMatchOfName | sys/boot/ofw/libofw/devicename.c:94-99 | in a prefix-free device switch, a spec starting with an entry's name matches that entry |
| DeviceName.SliceField | sys/boot/ofw/libofw/devicename.c:121-128 | without an `s` the slice is -1; an `s` not followed by a digit is ESLICE |
| DeviceName.PartitionField | sys/boot/ofw/libofw/devicename.c:129-136 | at `:` or the end there is no partition (-1); otherwise a letter `a`..`h` gives 0..7 and anything else is EPART |
| DeviceName.DiskFieldsFrom | sys/boot/ofw/libofw/devicename.c:115-137 | text not starting with a digit is EUNIT; the only errors are EUNIT, ESLICE and EPART; on success the unit is non-negative, the slice is at least -1, the partition is -1 or in range, and the rest is a suffix of the text |
| DeviceName.DiskFinish | sys/boot/ofw/libofw/devicename.c:138-147 | success exactly when only `:` or the end follows, with the path just past the `:` |
| DeviceName.ParseDisk | sys/boot/ofw/libofw/devicename.c:111-148 | with the scan pointer starting at the remainder: empty text or `:` gives unit, slice and partition -1; the unit is -1 exactly when omitted; the only errors are EUNIT, ESLICE, EPART and EINVAL; the returned path is always a suffix of the spec |
| DeviceName.ParseDiskUnit | sys/boot/ofw/libofw/devicename.c:115-116 | when a unit is given and the parse succeeds, the unit is the value base-10 strtol reads at the start of the remainder |
| DeviceName.PartitionThenEnd | sys/boot/ofw/libofw/devicename.c:129-147 | after the unit and slice, `:` or the end gives no partition; a character other than `a`..`h` is EPART; a letter followed by anything but `:` or the end is EINVAL; otherwise the letter's partition, with the path past the `:` |
| DeviceName.ParseDiskUnitThen | sys/boot/ofw/libofw/devicename.c:115-147 | for a remainder `Digits(u) + rest`: `s` with no digit after it is ESLICE; without `s` the result is the partition-and-end check of rest with unit u and slice -1 (so `0a:` gives unit 0, slice -1, partition 0) |
| DeviceName.ParseDiskSliceThen | sys/boot/ofw/libofw/devicename.c:115-147 | for a remainder `Digits(u) + "s" + Digits(s) + rest`: the result is the partition-and-end check of rest with unit u and slice s |
| DeviceName.ParseDiskAsWritten | sys/boot/ofw/libofw/devicename.c:111-148 | agrees with ParseDisk when a unit is given; otherwise the outcome depends on the unassigned scan pointer |
| DeviceName.ParseNet | sys/boot/ofw/libofw/devicename.c:150-168 | with the scan pointer starting at the remainder: an omitted unit is 0; a non-digit is EUNIT; the only errors are EUNIT and EINVAL; the path is a suffix of the spec |
| DeviceName.ParseNetUnit | sys/boot/ofw/libofw/devicename.c:153-154 | when a unit is given and the parse succeeds, the unit is the value base-0 strtol reads at the start of the remainder |
| DeviceName.NetUnitOctal | sys/boot/ofw/libofw/devicename.c:153-154 | base-0 strtol makes a leading zero octal: the remainder `010:` of `net010:` is interface 8 with an empty path |
| DeviceName.ParseNetUnitThen | sys/boot/ofw/libofw/devicename.c:153-167 | for a remainder `Digits(u) + rest`: EINVAL exactly when something other than `:` or the end follows the unit, otherwise unit u with the path past the `:` |
| DeviceName.NetFinish | sys/boot/ofw/libofw/devicename.c:160-167 | success exactly when only `:` or the end follows the unit; a trailing character gives EINVAL |
| DeviceName.ParseNetAsWritten | sys/boot/ofw/libofw/devicename.c:150-168 | agrees with ParseNet when a unit is given; otherwise it reads the unassigned scan pointer |
| DeviceName.ParseDev | sys/boot/ofw/libofw/devicename.c:80-186 | a spec shorter than 2 is EINVAL; no matching name is ENOENT; success uses the first matching entry, yields a descriptor whose kind agrees with its type, and writes a path (a suffix of the spec) exactly for disk and net devices; a matched entry of type DEVT_NONE yields a descriptor with no kind and no path, and one of an unlisted type is EINVAL |
| DeviceName.ParseDevDisk | sys/boot/ofw/libofw/devicename.c:104-148 | a spec whose first match is a disk entry is parsed by the disk rules applied to the text after the name: their descriptor and path when they succeed, their error (through `fail`) when they do not |
| DeviceName.ParseDevNet | sys/boot/ofw/libofw/devicename.c:150-168 | the same for a network entry and the network rules |
| DeviceName.GetDev | sys/boot/ofw/libofw/devicename.c:40-64 | a missing spec, one starting with `/` or one without `:` is resolved against `currdev`, and on success the whole spec becomes the path; an explicit spec is parsed itself, and a path is written exactly when one was asked for and the parse yielded one, and it is that path, a suffix of the spec |
| DeviceName.SetCurrDev | sys/boot/ofw/libofw/devicename.c:241-253 | a new `currdev` is accepted exactly when it parses, and the stored value is the one given |
| DeviceName.FmtDev | sys/boot/ofw/libofw/devicename.c:214-239 | disk and net texts start with the device name and end with `:`; a disk's letter is the partition plus `a` as an 8-bit character; DEVT_NONE formats as `(no device)`; an unlisted type leaves the buffer as it was |
| DeviceName.FmtParseDisk | sys/boot/ofw/libofw/devicename.c:226-229 | formatting a fully specified disk and parsing the text gives the same descriptor back, with an empty path |
| DeviceName.ParseFmtDisk | sys/boot/ofw/libofw/devicename.c:116-147 | canonical disk text parses, and formatting the result reproduces the text exactly |
| DeviceName.FmtParseNet | sys/boot/ofw/libofw/devicename.c:232-234 | formatting a network interface and parsing the text gives the same descriptor back |
| DeviceName.OmittedSliceNotRestored | sys/boot/ofw/libofw/devicename.c:121-128 | for every disk entry, unit and partition, the text name, unit, letter, `:` parses with slice -1 and an empty path, and formats back with `s-1` inserted, so it differs from the text parsed: the round trip holds only for fully specified disks |
| DeviceName.DiskStrayRejects | sys/boot/ofw/libofw/devicename.c:138-141 | with the scan pointer left unassigned, `disk:` can be rejected with EINVAL, where the intended parse accepts it |
| DeviceName.DiskStrayPath | sys/boot/ofw/libofw/devicename.c:146-147 | with the scan pointer left unassigned, the returned path can lie outside the spec |
| DeviceName.NetStrayRejects | sys/boot/ofw/libofw/devicename.c:160-163 | with the scan pointer left unassigned, `net` alone can be rejected with EINVAL |
| DeviceName.LastAt | sys/boot/ofw/libofw/devicename.c:196 | the last `@` of the text, None exactly when there is none |
| DeviceName.ParseOfwDevAsWritten | sys/boot/ofw/libofw/devicename.c:189-212 | every path that completes returns the stray value left behind, not a status the function set |
| DeviceName.ParseOfwDev | sys/boot/ofw/libofw/devicename.c:189-212 | with the intended `return 0`: no `@` is EINVAL with the descriptor untouched; success gives a non-negative unit and a slice of at least 1; EUNIT leaves the unit 0 |
| DeviceName.ParseOfwDevText | sys/boot/ofw/libofw/devicename.c:196-211 | a firmware path ending in `@unit,slice:letter` yields that unit, the slice plus one and the letter's partition |
| DeviceName.OfwStrayStatus | sys/boot/ofw/libofw/devicename.c:211-212 | as written, a well-formed path such as `/disk@0,0:a` stores every field but reports whatever status was left behind |

## Left out

- The RPC transport (`nfs_readrpc`, `nfs_writerpc`, `nfs_readdirrpc`, `nfs_readlinkrpc`, `nqnfs_getlease`, `nfs_fsinfo`, getattr): the wire format is not part of this model. Their results are parameters.
- Sleeping, waking and signals (`tsleep`, `wakeup`, `getblk` blocking, `nfs_sigintr`): these are concurrency. Each sleep's outcome is a parameter, and only single-step decisions are modelled.
- NfsRead.ReadCopyStep: treats the assignment `n = diff` at line 490 as keeping the full-width value. The `int` store differs only when a read starts more than 2^31 bytes past end-of-file; WantedAsWritten and ReadCopyStepAsWritten model it, and FarPastEndWraps shows the difference. It is not logged as a defect because reaching it needs a cached block beyond end-of-file.
- NfsCoherency.Vinvalbuf: it stops at `Sleeping` when another flush is in progress. What happens after the wake-up depends on another process.
- NfsCoherency.FlushLoop and NfsCoherency.RenewLease: each covers the finite run of attempts or replies given to it. A kernel loop that never ends is outside a finite parameter.
- VM page mapping and page-queue handling (`pmap_qenter`, `vm_page_protect` in `nfs_prot_buf`, activate, deactivate, free): these are foreign kernel calls. Pages are modelled only by the mark and freed flag they receive.
- The text-file SIGKILL in `nfs_doio` (`nfs_bio.c:1203-1212`): this is signal delivery.
- Reads of symbolic links and directories (the VLNK and VDIR cases of `nfs_bioread` and `nfs_doio`, the directory cookie replay, `nfs_invaldir`), and the physical-I/O branch of `nfs_doio`. The model covers regular-file blocks.
- The second lease check inside the write loop (`nfs_bio.c:808-826`). It repeats NfsCoherency.LeaseCheck for the write mode between the flush and the copy.
- The `IO_APPEND` getattr and the non-cachable direct write at the top of `nfs_write`: both are a single RPC with no buffer bookkeeping.
- The flush of a modified file before an `IO_APPEND` or `IO_SYNC` write (`nfs_bio.c:701-707`): it is a call of nfs_vinvalbuf, which NfsCoherency.Vinvalbuf models on its own.
- The entry checks of `nfs_bioread` (`nfs_bio.c:301-311`: an empty request, a negative offset, a request past the maximum file size): they are argument checks before any buffer is touched, like the ones WriteArgsCheck models for writes.
- The direct read of a non-cachable lease file (`nfs_bio.c:388-391`): it is a single RPC that bypasses the buffer cache.
- The `nfs_vinvalbuf` after a synchronous write on a non-cachable lease (`nfs_bio.c:878-883`): WriteBlock ends at the disposition.
- `biodone`, `brelse`, `bdwrite` and `bwrite`, credentials and statistics.
- NumText.Strtol: leading white space, a sign and overflow clamping are not modelled. A sign or a space is treated as a non-digit, and values are unbounded. A `0x` prefix is read as hexadecimal only when a hexadecimal digit follows. The library `strtol` is not part of this model.
- SharedPage.Alloc: `int` overflow of `res + size` is not modelled. Requests are taken to have a non-negative size, as every caller passes a structure size.
- The `sx` lock around allocation, `shared_page_init`, and the `exec_sysvec_init` registration. These are VM allocation and global registration.
- Timehands.UpdateTrace: the stores are in program order. The release ordering of `atomic_store_rel_32` is a memory-model matter and is not modelled.
- The 32-bit variant `timehands_update32`: it is identical to `timehands_update` over a different record layout.
- The `tc_fill_vdso_timehands` time data: it is a parameter.
- DeviceName.GetDev: `currdev` is taken to be set. A NULL `getenv` result would crash `strlen`.
- DeviceName.FmtDev: the static 128-byte buffer is unbounded here.
- DeviceName.SetCurrDev: the `env_setenv` call is represented by returning the value to store.
- `malloc` and `free` of the descriptor.

## Findings

| source | as written | input that shows it | evidently intended | confidence | as-written member | corrected member |
|---|---|---|---|---|---|---|
| sys/boot/ofw/libofw/devicename.c:138 | in the disk case, `cp` is only assigned inside the `if` at line 115, yet it is read at lines 138 and 146-147 when the text after the name is empty or starts with `:` | `disk:` with the stray pointer at `x` gives EINVAL (DiskStrayRejects); `disk` with it at `:/boot` returns path `/boot`, which is not in the spec (DiskStrayPath) | scanning starts at the text after the name (`cp = np`), so `disk:` parses with every field -1 and an empty path | not executed | DeviceName.ParseDiskAsWritten | DeviceName.ParseDisk |
| sys/boot/ofw/libofw/devicename.c:160 | in the net case, `cp` is only assigned inside the `if` at line 153, yet it is read at lines 160 and 166-167 when no unit is given | `net` with the stray pointer at `x` gives EINVAL (NetStrayRejects) | `cp = np`, so `net` and `net:` parse as unit 0 | not executed | DeviceName.ParseNetAsWritten | DeviceName.ParseNet |
| sys/nfsclient/nfs_bio.c:1192-1193 | `len = np->n_size - (blkno * DEV_BSIZE + diff)` stores a 64-bit distance in the `int len` declared at line 1131 | a short read of the first block (bcount 8192, 4192 bytes missing) of a file of 2^32 + 4100 bytes leaves 100 hole bytes valid instead of the whole buffer; with 2^31 + 4005 bytes none are (ReadDoneTruncatesLen) | compare the full-width distance with 0 and with the residual count | not executed | NfsDoio.ReadDoneAsWritten | NfsDoio.ReadDone |
| sys/boot/ofw/libofw/devicename.c:211-212 | `ofw_parseofwdev` ends after its last assignment without a `return`, so a complete parse returns an indeterminate value | `/disk@0,0:a` stores unit 0, slice 1, partition 0 and returns whatever value was left behind (OfwStrayStatus) | return 0 after a complete parse | not executed | DeviceName.ParseOfwDevAsWritten | DeviceName.ParseOfwDev |

=== FILE: devicename.dfy ===
/**
 * The Open Firmware boot loader's device names: parsing a specification
 * such as `disk0s1a:/boot/kernel` against the device switch, choosing
 * between an explicit specification and the current device, and
 * formatting a descriptor back to text.
 *
 * Strings are the characters of a C string, without its terminating NUL;
 * reading `*cp` at the end of the text is the NUL, modelled as the empty
 * remainder.
 */
module DeviceName {
  import opened Results
  import opened NumText

  const MAXPARTITIONS: int := 8

  datatype DevType = DevtNone | DevtDisk | DevtNet | DevtOther

  /** An entry of the device switch: its name and type. */
  datatype DevSw = DevSw(name: string, dtype: DevType)

  /** The type-specific part of a descriptor (the d_kind union). */
  datatype Kind = NoKind | DiskKind(unit: int, slice: int, partition: int) | NetKind(unit: int)

  /** struct ofw_devdesc: the device and its kind; d_type is dev.dtype. */
  datatype DevDesc = DevDesc(dev: DevSw, kind: Kind)

  datatype DevError = EINVAL | ENOENT | EUNIT | ESLICE | EPART

  predicate CString(s: string) {
    forall i :: 0 <= i < |s| ==> s[i] != '\0'
  }

  predicate CTable(table: seq<DevSw>) {
    forall i :: 0 <= i < |table| ==> CString(table[i].name)
  }

  predicate IsPrefix(p: string, s: string) {
    |p| <= |s| && s[..|p|] == p
  }

  predicate IsSuffix(t: string, s: string) {
    |t| <= |s| && s[|s| - |t|..] == t
  }

  /** The first entry of the switch whose name is a prefix of the spec
      (`strncmp(spec, name, strlen(name)) == 0`). */
  function FirstMatchFrom(table: seq<DevSw>, spec: string, i: nat): (r: Option<nat>)
    requires i <= |table|
    ensures r.None? <==> forall j :: i <= j < |table| ==> !IsPrefix(table[j].name, spec)
    ensures r.Some? ==> i <= r.value < |table| && IsPrefix(table[r.value].name, spec)
    ensures r.Some? ==> forall j :: i <= j < r.value ==> !IsPrefix(table[j].name, spec)
    decreases |table| - i
  {
    if i == |table| then None
    else if IsPrefix(table[i].name, spec) then Some(i)
    else FirstMatchFrom(table, spec, i + 1)
  }

  function FirstMatch(table: seq<DevSw>, spec: string): (r: Option<nat>)
    ensures r.None? <==> forall j :: 0 <= j < |table| ==> !IsPrefix(table[j].name, spec)
    ensures r.Some? ==> r.value < |table| && IsPrefix(table[r.value].name, spec)
    ensures r.Some? ==> forall j :: 0 <= j < r.value ==> !IsPrefix(table[j].name, spec)
  {
    FirstMatchFrom(table, spec, 0)
  }

  /** Where `*path` is left: past the `:` at cp, or at the end of the text
      when cp is at the end. */
  function PathAfter(cp: string): (p: string)
    ensures IsSuffix(p, cp)
    ensures |cp| > 0 ==> p == cp[1..]
    ensures |cp| == 0 ==> p == []
  {
    if |cp| == 0 then cp else cp[1..]
  }

  predicate AtEnd(cp: string) {
    |cp| == 0 || cp[0] == ':'
  }

  /** Fields of a disk descriptor and the text left after them. */
  datatype Fields = Fields(unit: int, slice: int, partition: int, cp: string)

  /** The optional slice: `s` followed by decimal digits. */
  function SliceField(cp: string): (r: Result<(int, string), DevError>)
    ensures r.Success? ==> IsSuffix(r.value.1, cp)
    ensures (|cp| == 0 || cp[0] != 's') ==> r == Success((-1, cp))
    ensures r.Failure? <==> |cp| > 0 && cp[0] == 's' && (|cp| == 1 || !IsDigitIn(cp[1], 10))
    ensures r.Failure? ==> r.error == ESLICE
    ensures r.Success? ==> r.value.0 >= -1
  {
    if |cp| > 0 && cp[0] == 's' then
      var np := cp[1..];
      var s := Strtol(np, 10);
      if s.len == 0 then Failure(ESLICE)
      else Success((s.value, np[s.len..]))
    else Success((-1, cp))
  }

  /** The optional partition letter; at the end of the text (`:` or NUL)
      there is none. */
  function PartitionField(cp: string): (r: Result<(int, string), DevError>)
    ensures AtEnd(cp) ==> r == Success((-1, cp))
    ensures r.Success? ==> IsSuffix(r.value.1, cp)
    ensures r.Failure? ==> r.error == EPART
    ensures !AtEnd(cp) ==>
              var p := cp[0] as int - 'a' as int;
              if 0 <= p < MAXPARTITIONS then r == Success((p, cp[1..])) else r == Failure(EPART)
  {
    if !AtEnd(cp) then
      var p := cp[0] as int - 'a' as int;
      if p < 0 || p >= MAXPARTITIONS then Failure(EPART)
      else Success((p, cp[1..]))
    else Success((-1, cp))
  }

  /** Unit, slice and partition when the text after the device name is
      neither empty nor starts with `:`. */
  function DiskFieldsFrom(np: string): (r: Result<Fields, DevError>)
    requires !AtEnd(np)
    ensures r.Failure? && !IsDigitIn(np[0], 10) ==> r.error == EUNIT
    ensures !IsDigitIn(np[0], 10) ==> r.Failure?
    ensures r.Failure? ==> r.error == EUNIT || r.error == ESLICE || r.error == EPART
    ensures r.Success? ==> IsSuffix(r.value.cp, np) && r.value.unit >= 0 && r.value.slice >= -1
    ensures r.Success? ==> r.value.partition == -1 || 0 <= r.value.partition < MAXPARTITIONS
  {
    var u := Strtol(np, 10);
    if u.len == 0 then Failure(EUNIT)
    else
      var r := FieldsAfterUnit(u.value, np[u.len..]);
      assert r.Success? ==> IsSuffix(r.value.cp, np) by {
        if r.Success? { SuffixOfSuffix(r.value.cp, np[u.len..], np); }
      }
      r
  }

  /** The optional slice and partition after the unit. */
  function FieldsAfterUnit(unit: int, cp: string): (r: Result<Fields, DevError>)
    ensures r.Failure? ==> r.error == ESLICE || r.error == EPART
    ensures r.Success? ==> IsSuffix(r.value.cp, cp) && r.value.unit == unit && r.value.slice >= -1
    ensures r.Success? ==> r.value.partition == -1 || 0 <= r.value.partition < MAXPARTITIONS
  {
    match SliceField(cp)
    case Failure(e) => Failure(e)
    case Success((slice, rest)) =>
      match PartitionField(rest)
      case Failure(e) => Failure(e)
      case Success((partition, left)) =>
        SuffixOfSuffix(left, rest, cp);
        Success(Fields(unit, slice, partition, left))
  }

  lemma SuffixOfSuffix(a: string, b: string, c: string)
    requires IsSuffix(a, b) && IsSuffix(b, c)
    ensures IsSuffix(a, c)
  {
    assert c[|c| - |a|..] == c[|c| - |b|..][|b| - |a|..];
  }

  /** The final check of the disk case: only `:` or the end may follow. */
  function DiskFinish(f: Fields): (r: Result<(Kind, string), DevError>)
    ensures r.Success? <==> AtEnd(f.cp)
    ensures r.Failure? ==> r.error == EINVAL
    ensures r.Success? ==> r.value == (DiskKind(f.unit, f.slice, f.partition), PathAfter(f.cp))
  {
    if !AtEnd(f.cp) then Failure(EINVAL)
    else Success((DiskKind(f.unit, f.slice, f.partition), PathAfter(f.cp)))
  }

  /** The disk case with the scan pointer starting at the text after the
      name, so that an empty remainder or a bare `:` is accepted with all
      fields defaulted to -1. */
  function ParseDisk(np: string): (r: Result<(Kind, string), DevError>)
    ensures AtEnd(np) ==> r == Success((DiskKind(-1, -1, -1), PathAfter(np)))
    ensures !AtEnd(np) && !IsDigitIn(np[0], 10) ==> r == Failure(EUNIT)
    ensures r.Success? ==> IsSuffix(r.value.1, np) && r.value.0.DiskKind?
    ensures r.Success? ==> (r.value.0.unit == -1 <==> AtEnd(np))
    ensures r.Success? ==> r.value.0.partition == -1 || 0 <= r.value.0.partition < MAXPARTITIONS
    ensures r.Failure? ==> r.error != ENOENT
  {
    if !AtEnd(np) then
      var f :- DiskFieldsFrom(np);
      DiskFinish(f)
    else DiskFinish(Fields(-1, -1, -1, np))
  }

  /** A given disk unit is the value strtol reads at the start of the
      remainder. */
  lemma ParseDiskUnit(np: string)
    requires !AtEnd(np) && ParseDisk(np).Success?
    ensures ParseDisk(np).value.0.unit == Strtol(np, 10).value
  {
    var u := Strtol(np, 10);
    var f := DiskFieldsFrom(np);
    assert f.Success?;
    assert f == FieldsAfterUnit(u.value, np[u.len..]);
    assert ParseDisk(np) == DiskFinish(f.value);
  }

  /** What follows the unit and the optional slice of a disk: an optional
      partition letter, then only `:` or the end. A character that is not
      a partition letter is EPART; a letter followed by anything else is
      EINVAL. */
  function PartitionThenEnd(unit: int, slice: int, cp: string): (r: Result<(Kind, string), DevError>)
    ensures AtEnd(cp) ==> r == Success((DiskKind(unit, slice, -1), PathAfter(cp)))
    ensures !AtEnd(cp) && !('a' <= cp[0] <= 'h') ==> r == Failure(EPART)
    ensures !AtEnd(cp) && 'a' <= cp[0] <= 'h' ==>
              r == (if AtEnd(cp[1..]) then Success((DiskKind(unit, slice, cp[0] as int - 'a' as int), PathAfter(cp[1..])))
                    else Failure(EINVAL))
  {
    var (p, rest) :- PartitionField(cp);
    DiskFinish(Fields(unit, slice, p, rest))
  }

  /** A disk remainder that starts with unit u: `s` without digits after
      it is ESLICE; without a slice, the partition and the end are
      checked on the text right after the unit. */
  lemma ParseDiskUnitThen(u: nat, rest: string)
    requires |rest| == 0 || !IsDigitIn(rest[0], 10)
    ensures var r := ParseDisk(Digits(u) + rest);
            && (|rest| > 0 && rest[0] == 's' && (|rest| == 1 || !IsDigitIn(rest[1], 10)) ==> r == Failure(ESLICE))
            && (|rest| == 0 || rest[0] != 's' ==> r == PartitionThenEnd(u, -1, rest))
  {
    var np := Digits(u) + rest;
    ScanItoa10(u, rest);
    assert np[|Digits(u)|..] == rest;
    assert !AtEnd(np) by { assert np[0] == Digits(u)[0]; }
  }

  /** A disk remainder with unit u and slice s: the partition and the end
      are checked on the text right after the slice. */
  lemma ParseDiskSliceThen(u: nat, s: nat, rest: string)
    requires |rest| == 0 || !IsDigitIn(rest[0], 10)
    ensures ParseDisk(Digits(u) + ("s" + Digits(s) + rest)) == PartitionThenEnd(u, s, rest)
  {
    var sliceText := "s" + Digits(s) + rest;
    var np := Digits(u) + sliceText;
    ScanItoa10(u, sliceText);
    assert np[|Digits(u)|..] == sliceText;
    assert !AtEnd(np) by { assert np[0] == Digits(u)[0]; }
    SliceText(s, rest);
  }

  /** A net remainder that starts with unit u: anything other than `:` or
      the end after the unit is EINVAL; otherwise the unit is u. */
  lemma ParseNetUnitThen(u: nat, rest: string)
    requires |rest| == 0 || (!IsDigitIn(rest[0], 10) && rest[0] != 'x' && rest[0] != 'X')
    ensures ParseNet(Digits(u) + rest) ==
              if AtEnd(rest) then Success((NetKind(u), PathAfter(rest))) else Failure(EINVAL)
  {
    var np := Digits(u) + rest;
    ScanItoa0(u, rest);
    assert np[|Digits(u)|..] == rest;
    assert !AtEnd(np) by { assert np[0] == Digits(u)[0]; }
  }

  /** The disk case as written: when the remainder is empty or starts with
      `:`, the scan pointer is never assigned, and the final check and the
      returned path read whatever text it happens to point at, here the
      parameter `stray`. */
  function ParseDiskAsWritten(np: string, stray: string): (r: Result<(Kind, string), DevError>)
    ensures !AtEnd(np) ==> r == ParseDisk(np)
    ensures AtEnd(np) ==> r == DiskFinish(Fields(-1, -1, -1, stray))
  {
    if !AtEnd(np) then
      var f :- DiskFieldsFrom(np);
      DiskFinish(f)
    else DiskFinish(Fields(-1, -1, -1, stray))
  }

  /** The net case: an optional unit number in any base strtol accepts. */
  function ParseNet(np: string): (r: Result<(Kind, string), DevError>)
    ensures AtEnd(np) ==> r == Success((NetKind(0), PathAfter(np)))
    ensures !AtEnd(np) && !IsDigitIn(np[0], 10) ==> r == Failure(EUNIT)
    ensures r.Failure? ==> r.error == EUNIT || r.error == EINVAL
    ensures r.Success? ==> IsSuffix(r.value.1, np) && r.value.0.NetKind? && r.value.0.unit >= 0
  {
    if !AtEnd(np) then
      var u := Strtol(np, 0);
      if u.len == 0 then Failure(EUNIT)
      else NetFinish(u.value, np[u.len..])
    else NetFinish(0, np)
  }

  /** A given network unit is the value base-0 strtol reads at the start
      of the remainder. */
  lemma ParseNetUnit(np: string)
    requires !AtEnd(np) && ParseNet(np).Success?
    ensures ParseNet(np).value.0.unit == Strtol(np, 0).value
  {
  }

  /** A network unit with a leading zero is read in octal: `net010:` is
      interface 8. */
  lemma NetUnitOctal()
    ensures ParseNet("010:") == Success((NetKind(8), ""))
  {
    var np := "010:";
    var u := Strtol(np, 0);
    assert !HexPrefix(np) && np[0] == '0';
    assert IsDigitIn(np[0], 8) && IsDigitIn(np[1], 8) && IsDigitIn(np[2], 8) && !IsDigitIn(np[3], 8);
    assert u.len == 3;
    assert np[..3] == "010";
    assert ValueOf("010", 8) == 8 by {
      assert "010"[..2] == "01" && "01"[..1] == "0" && "0"[..0] == "";
    }
    assert np[3..] == ":";
  }

  function NetFinish(unit: int, cp: string): (r: Result<(Kind, string), DevError>)
    ensures r.Success? <==> AtEnd(cp)
    ensures r.Failure? ==> r.error == EINVAL
    ensures r.Success? ==> r.value == (NetKind(unit), PathAfter(cp))
  {
    if !AtEnd(cp) then Failure(EINVAL)
    else Success((NetKind(unit), PathAfter(cp)))
  }

  /** The net case as written, with the unassigned scan pointer standing at
      `stray` when no unit is given. */
  function ParseNetAsWritten(np: string, stray: string): (r: Result<(Kind, string), DevError>)
    ensures !AtEnd(np) ==> r == ParseNet(np)
    ensures AtEnd(np) ==> r == NetFinish(0, stray)
  {
    if !AtEnd(np) then
      var u := Strtol(np, 0);
      if u.len == 0 then Failure(EUNIT)
      else NetFinish(u.value, np[u.len..])
    else NetFinish(0, stray)
  }

  /** A successful parse: the descriptor, and the path written through the
      caller's pointer (None when it is not written, as for a device of
      type DEVT_NONE). */
  datatype Parsed = Parsed(desc: DevDesc, path: Option<string>)

  /** ofw_parsedev. */
  function ParseDev(table: seq<DevSw>, spec: string): (r: Result<Parsed, DevError>)
    requires CTable(table) && CString(spec)
    ensures |spec| < 2 ==> r == Failure(EINVAL)
    ensures |spec| >= 2 && FirstMatch(table, spec).None? ==> r == Failure(ENOENT)
    ensures r.Success? ==>
              && FirstMatch(table, spec).Some?
              && r.value.desc.dev == table[FirstMatch(table, spec).value]
              && (r.value.path.Some? ==> IsSuffix(r.value.path.value, spec))
              && (r.value.path.None? <==> r.value.desc.dev.dtype == DevtNone)
    ensures r.Success? ==> r.value.desc.dev.dtype != DevtOther
    ensures r.Success? ==> WellKinded(r.value.desc)
    // an entry without units takes no fields and no path; an unknown type is refused
    ensures |spec| >= 2 && FirstMatch(table, spec).Some? ==>
              var dv := table[FirstMatch(table, spec).value];
              && (dv.dtype == DevtNone ==> r == Success(Parsed(DevDesc(dv, NoKind), None)))
              && (dv.dtype == DevtOther ==> r == Failure(EINVAL))
  {
    if |spec| < 2 then Failure(EINVAL)
    else
      match FirstMatch(table, spec)
      case None => Failure(ENOENT)
      case Some(i) =>
        var dv := table[i];
        var np := spec[|dv.name|..];
        assert IsSuffix(np, spec);
        match dv.dtype
        case DevtNone => Success(Parsed(DevDesc(dv, NoKind), None))
        case DevtDisk =>
          (match ParseDisk(np)
           case Failure(e) => Failure(e)
           case Success((k, path)) =>
             SuffixOfSuffix(path, np, spec);
             Success(Parsed(DevDesc(dv, k), Some(path))))
        case DevtNet =>
          (match ParseNet(np)
           case Failure(e) => Failure(e)
           case Success((k, path)) =>
             SuffixOfSuffix(path, np, spec);
             Success(Parsed(DevDesc(dv, k), Some(path))))
        case DevtOther => Failure(EINVAL)
  }

  /** The descriptor's type and the member of its kind union agree. */
  predicate WellKinded(d: DevDesc) {
    match d.dev.dtype
    case DevtNone => d.kind.NoKind?
    case DevtDisk => d.kind.DiskKind?
    case DevtNet => d.kind.NetKind?
    case DevtOther => true
  }

  /** What ofw_getdev leaves in `*path`. */
  datatype PathOut = Untouched | PathNull | PathTo(p: string)

  /** A spec names a device explicitly when it is present, does not start
      with `/` and contains a `:`. */
  predicate Explicit(devspec: Option<string>) {
    devspec.Some? && (|devspec.value| == 0 || devspec.value[0] != '/') && ':' in devspec.value
  }

  /** ofw_getdev: an explicit spec is parsed itself; anything else is a path
      on the current device, which is parsed from `currdev` instead. */
  function GetDev(table: seq<DevSw>, devspec: Option<string>, currdev: string, wantPath: bool)
    : (r: (Result<DevDesc, DevError>, PathOut))
    requires CTable(table) && CString(currdev) && (devspec.Some? ==> CString(devspec.value))
    ensures !Explicit(devspec) ==>
              var c := ParseDev(table, currdev);
              && (r.0.Success? <==> c.Success?)
              && (c.Success? ==> r.0.value == c.value.desc)
              && (c.Failure? ==> r.0.error == c.error)
              && (r.1 != Untouched <==> wantPath && c.Success?)
              && (r.1.PathTo? ==> devspec == Some(r.1.p))
              && (r.1 == PathNull ==> devspec.None?)
    ensures Explicit(devspec) ==>
              var e := ParseDev(table, devspec.value);
              && (r.0.Success? <==> e.Success?)
              && (e.Success? ==> r.0.value == e.value.desc)
              && (e.Failure? ==> r.0.error == e.error)
              && r.1 != PathNull
              && (r.1.PathTo? <==> wantPath && e.Success? && e.value.path.Some?)
              && (r.1.PathTo? ==> r.1.p == e.value.path.value && IsSuffix(r.1.p, devspec.value))
  {
    if !Explicit(devspec) then
      var c := ParseDev(table, currdev);
      var path := if wantPath && c.Success? then
                    (if devspec.Some? then PathTo(devspec.value) else PathNull)
                  else Untouched;
      (if c.Success? then Success(c.value.desc) else Failure(c.error), path)
    else
      var e := ParseDev(table, devspec.value);
      var path := if wantPath && e.Success? && e.value.path.Some? then PathTo(e.value.path.value) else Untouched;
      (if e.Success? then Success(e.value.desc) else Failure(e.error), path)
  }

  /** ofw_setcurrdev: a new `currdev` value is accepted only if it parses;
      the value to store in the environment is returned. */
  function SetCurrDev(table: seq<DevSw>, value: string): (r: Result<string, DevError>)
    requires CTable(table) && CString(value)
    ensures r.Success? <==> ParseDev(table, value).Success?
    ensures r.Success? ==> r.value == value
    ensures r.Failure? ==> r.error == ParseDev(table, value).error
  {
    var p :- ParseDev(table, value);
    Success(value)
  }

  /** `%c` of an int: the low eight bits as a character. */
  function CharOf(v: int): (c: char)
    ensures c as int == v % 256
  {
    (v % 256) as char
  }

  /** ofw_fmtdev. A descriptor of a type the switch statement does not
      list leaves the static buffer as it was, given here as `prev`. */
  function FmtDev(d: DevDesc, prev: string): (s: string)
    requires WellKinded(d)
    ensures d.dev.dtype in {DevtDisk, DevtNet} ==>
              |s| >= |d.dev.name| + 2 && IsPrefix(d.dev.name, s) && s[|s| - 1] == ':'
    ensures d.dev.dtype == DevtDisk ==> |s| >= 2 && s[|s| - 2] as int == (d.kind.partition + 'a' as int) % 256
    ensures d.dev.dtype == DevtNone ==> s == "(no device)"
    ensures d.dev.dtype == DevtOther ==> s == prev
  {
    match d.dev.dtype
    case DevtNone => "(no device)"
    case DevtDisk =>
      d.dev.name + Itoa(d.kind.unit) + "s" + Itoa(d.kind.slice)
      + [CharOf(d.kind.partition + 'a' as int)] + ":"
    case DevtNet => d.dev.name + Itoa(d.kind.unit) + ":"
    case DevtOther => prev
  }

  /** No name in the switch is a prefix of another, so a spec matches at
      most one entry. */
  ghost predicate PrefixFree(table: seq<DevSw>) {
    forall i, j :: 0 <= i < |table| && 0 <= j < |table| && i != j ==>
      !IsPrefix(table[i].name, table[j].name)
  }

  lemma FirstMatchOfName(table: seq<DevSw>, i: nat, rest: string)
    requires PrefixFree(table) && i < |table|
    ensures FirstMatch(table, table[i].name + rest) == Some(i)
  {
    var s := table[i].name + rest;
    assert IsPrefix(table[i].name, s) by {
      assert s[..|table[i].name|] == table[i].name;
    }
  }

  /** The canonical text of a disk: name, unit, `s`, slice, letter, `:`. */
  function DiskText(name: string, unit: nat, slice: nat, partition: int): string
    requires 0 <= partition < MAXPARTITIONS
  {
    name + Digits(unit) + "s" + Digits(slice) + [('a' as int + partition) as char] + ":"
  }

  lemma DigitsCString(n: nat)
    ensures CString(Digits(n))
  {
    var d := Digits(n);
    assert forall i :: 0 <= i < |d| ==> IsDigitIn(d[i], 10);
  }

  lemma SliceText(slice: nat, tail: string)
    requires |tail| == 0 || !IsDigitIn(tail[0], 10)
    ensures SliceField("s" + Digits(slice) + tail) == Success((slice, tail))
  {
    var t := "s" + Digits(slice) + tail;
    assert t[1..] == Digits(slice) + tail;
    ScanItoa10(slice, tail);
    assert (Digits(slice) + tail)[|Digits(slice)|..] == tail;
  }

  /** The fields of canonical disk text after the name. */
  lemma DiskFieldsText(unit: nat, slice: nat, partition: int)
    requires 0 <= partition < MAXPARTITIONS
    ensures var tail := [('a' as int + partition) as char] + ":";
            DiskFieldsFrom(Digits(unit) + "s" + Digits(slice) + tail)
              == Success(Fields(unit, slice, partition, ":"))
  {
    var tail := [('a' as int + partition) as char] + ":";
    var sliceText := "s" + Digits(slice) + tail;
    RegroupText(Digits(unit), "s", Digits(slice), tail);
    SliceAndLetterText(unit, slice, partition);
    UnitThen(unit, sliceText);
  }

  lemma RegroupText(a: string, b: string, c: string, d: string)
    ensures a + b + c + d == a + (b + c + d)
  {
  }

  /** The slice and partition of canonical disk text after the unit. */
  lemma SliceAndLetterText(unit: nat, slice: nat, partition: int)
    requires 0 <= partition < MAXPARTITIONS
    ensures var tail := [('a' as int + partition) as char] + ":";
            FieldsAfterUnit(unit, "s" + Digits(slice) + tail) == Success(Fields(unit, slice, partition, ":"))
  {
    var tail := [('a' as int + partition) as char] + ":";
    SliceText(slice, tail);
    assert PartitionField(tail) == Success((partition, ":"));
  }

  /** After the digits of a unit, the disk fields are read from the text
      that follows them. */
  lemma UnitThen(unit: nat, rest: string)
    requires |rest| == 0 || !IsDigitIn(rest[0], 10)
    ensures !AtEnd(Digits(unit) + rest)
    ensures DiskFieldsFrom(Digits(unit) + rest) == FieldsAfterUnit(unit, rest)
  {
    var np := Digits(unit) + rest;
    ScanItoa10(unit, rest);
    assert np[|Digits(unit)|..] == rest;
    assert np[0] == Digits(unit)[0];
  }

  lemma DiskTextCString(name: string, unit: nat, slice: nat, partition: int)
    requires CString(name) && 0 <= partition < MAXPARTITIONS
    ensures CString(DiskText(name, unit, slice, partition))
  {
    var spec := DiskText(name, unit, slice, partition);
    DigitsCString(unit);
    DigitsCString(slice);
    forall k | 0 <= k < |spec| ensures spec[k] != '\0' {
      if k < |name| { assert spec[k] == name[k]; }
      else if k < |name| + |Digits(unit)| { assert spec[k] == Digits(unit)[k - |name|]; }
      else if k < |name| + |Digits(unit)| + 1 { assert spec[k] == 's'; }
      else if k < |name| + |Digits(unit)| + 1 + |Digits(slice)| {
        assert spec[k] == Digits(slice)[k - |name| - |Digits(unit)| - 1];
      }
    }
  }

  /** A spec whose first match is entry i of disk type is parsed by the
      disk rules applied to the text after the name. */
  lemma ParseDevDisk(table: seq<DevSw>, i: nat, np: string)
    requires CTable(table) && i < |table| && table[i].dtype == DevtDisk
    requires CString(table[i].name + np) && |table[i].name + np| >= 2
    requires FirstMatch(table, table[i].name + np) == Some(i)
    ensures var r := ParseDisk(np);
            && (r.Success? ==>
                  ParseDev(table, table[i].name + np) == Success(Parsed(DevDesc(table[i], r.value.0), Some(r.value.1))))
            && (r.Failure? ==> ParseDev(table, table[i].name + np) == Failure(r.error))
  {
    assert (table[i].name + np)[|table[i].name|..] == np;
  }

  /** Parsing the canonical text of a fully specified disk yields that disk,
      and an empty path. */
  lemma ParseDiskText(table: seq<DevSw>, i: nat, unit: nat, slice: nat, partition: int)
    requires CTable(table) && PrefixFree(table) && i < |table| && table[i].dtype == DevtDisk
    requires 0 <= partition < MAXPARTITIONS
    ensures var spec := DiskText(table[i].name, unit, slice, partition);
            && CString(spec)
            && ParseDev(table, spec) == Success(Parsed(DevDesc(table[i], DiskKind(unit, slice, partition)), Some("")))
  {
    var name := table[i].name;
    var tail := [('a' as int + partition) as char] + ":";
    var np := Digits(unit) + "s" + Digits(slice) + tail;
    assert DiskText(name, unit, slice, partition) == name + np;
    DiskTextCString(name, unit, slice, partition);
    FirstMatchOfName(table, i, np);
    ParseDiskOfText(unit, slice, partition);
    ParseDevDisk(table, i, np);
  }

  /** The disk rules read canonical text after the name back completely. */
  lemma ParseDiskOfText(unit: nat, slice: nat, partition: int)
    requires 0 <= partition < MAXPARTITIONS
    ensures var tail := [('a' as int + partition) as char] + ":";
            ParseDisk(Digits(unit) + "s" + Digits(slice) + tail) == Success((DiskKind(unit, slice, partition), ""))
  {
    var tail := [('a' as int + partition) as char] + ":";
    var np := Digits(unit) + "s" + Digits(slice) + tail;
    assert np[0] == Digits(unit)[0];
    DiskFieldsText(unit, slice, partition);
    assert PathAfter(":") == "";
  }

  lemma FmtDiskText(dv: DevSw, unit: nat, slice: nat, partition: int, prev: string)
    requires dv.dtype == DevtDisk && 0 <= partition < MAXPARTITIONS
    ensures FmtDev(DevDesc(dv, DiskKind(unit, slice, partition)), prev) == DiskText(dv.name, unit, slice, partition)
  {
    assert CharOf(partition + 'a' as int) == ('a' as int + partition) as char;
  }

  /** Format then parse: a disk with unit, slice and partition all present
      comes back unchanged, with nothing left for the path. */
  lemma FmtParseDisk(table: seq<DevSw>, i: nat, unit: nat, slice: nat, partition: int, prev: string)
    requires CTable(table) && PrefixFree(table) && i < |table| && table[i].dtype == DevtDisk
    requires 0 <= partition < MAXPARTITIONS
    ensures var d := DevDesc(table[i], DiskKind(unit, slice, partition));
            && CString(FmtDev(d, prev))
            && ParseDev(table, FmtDev(d, prev)) == Success(Parsed(d, Some("")))
  {
    FmtDiskText(table[i], unit, slice, partition, prev);
    ParseDiskText(table, i, unit, slice, partition);
  }

  /** Parse then format: canonical disk text is reproduced exactly. */
  lemma ParseFmtDisk(table: seq<DevSw>, i: nat, unit: nat, slice: nat, partition: int, prev: string)
    requires CTable(table) && PrefixFree(table) && i < |table| && table[i].dtype == DevtDisk
    requires 0 <= partition < MAXPARTITIONS
    ensures var spec := DiskText(table[i].name, unit, slice, partition);
            var r := ParseDev(table, spec);
            r.Success? && FmtDev(r.value.desc, prev) == spec
  {
    ParseDiskText(table, i, unit, slice, partition);
    FmtDiskText(table[i], unit, slice, partition, prev);
  }

  /** Format then parse for a network interface with a unit number. */
  lemma {:induction false} FmtParseNet(table: seq<DevSw>, i: nat, unit: nat, prev: string)
    requires CTable(table) && PrefixFree(table) && i < |table| && table[i].dtype == DevtNet
    ensures var d := DevDesc(table[i], NetKind(unit));
            && CString(FmtDev(d, prev))
            && ParseDev(table, FmtDev(d, prev)) == Success(Parsed(d, Some("")))
  {
    var name := table[i].name;
    var d := DevDesc(table[i], NetKind(unit));
    var np := Digits(unit) + ":";
    assert FmtDev(d, prev) == name + np;
    DigitsCString(unit);
    AppendCString(Digits(unit), ":");
    AppendCString(name, np);
    FirstMatchOfName(table, i, np);
    ParseNetUnitThen(unit, ":");
    assert PathAfter(":") == "";
    ParseDevNet(table, i, np);
  }

  /** A spec whose first match is entry i of network type is parsed by the
      network rules applied to the text after the name. */
  lemma ParseDevNet(table: seq<DevSw>, i: nat, np: string)
    requires CTable(table) && i < |table| && table[i].dtype == DevtNet
    requires CString(table[i].name + np) && |table[i].name + np| >= 2
    requires FirstMatch(table, table[i].name + np) == Some(i)
    ensures var r := ParseNet(np);
            && (r.Success? ==>
                  ParseDev(table, table[i].name + np) == Success(Parsed(DevDesc(table[i], r.value.0), Some(r.value.1))))
            && (r.Failure? ==> ParseDev(table, table[i].name + np) == Failure(r.error))
  {
    assert (table[i].name + np)[|table[i].name|..] == np;
  }

  /** The round trip is restricted to fully specified disks: a disk named
      without a slice parses with slice -1, which formats as `s-1`, so the
      text that comes back is not the text that was parsed. */
  lemma OmittedSliceNotRestored(table: seq<DevSw>, i: nat, unit: nat, partition: int, prev: string)
    requires CTable(table) && PrefixFree(table) && i < |table| && table[i].dtype == DevtDisk
    requires 0 <= partition < MAXPARTITIONS
    ensures var letter := [('a' as int + partition) as char];
            var spec := table[i].name + (Digits(unit) + (letter + ":"));
            var d := DevDesc(table[i], DiskKind(unit, -1, partition));
            && CString(spec)
            && ParseDev(table, spec) == Success(Parsed(d, Some("")))
            && FmtDev(d, prev) == table[i].name + Digits(unit) + "s" + "-1" + letter + ":"
            && FmtDev(d, prev) != spec
  {
    var letter := [('a' as int + partition) as char];
    var np := Digits(unit) + (letter + ":");
    var spec := table[i].name + np;
    UnitAndLetter(unit, partition);
    UnitLetterCString(table[i].name, unit, partition);
    FirstMatchOfName(table, i, np);
    ParseDevDisk(table, i, np);
    NoSliceFormat(table[i], unit, partition, prev);
  }

  lemma UnitAndLetter(unit: nat, partition: int)
    requires 0 <= partition < MAXPARTITIONS
    ensures ParseDisk(Digits(unit) + ([('a' as int + partition) as char] + ":"))
              == Success((DiskKind(unit, -1, partition), ""))
  {
    var c := ('a' as int + partition) as char;
    var tail := [c] + ":";
    assert tail[0] == c && !IsDigitIn(c, 10) && !AtEnd(tail);
    ParseDiskUnitThen(unit, tail);
    assert tail[1..] == ":" && PathAfter(":") == "";
    assert c as int - 'a' as int == partition;
  }

  lemma UnitLetterCString(name: string, unit: nat, partition: int)
    requires CString(name) && 0 <= partition < MAXPARTITIONS
    ensures CString(name + (Digits(unit) + ([('a' as int + partition) as char] + ":")))
  {
    var tail := [('a' as int + partition) as char] + ":";
    DigitsCString(unit);
    assert CString(tail);
    AppendCString(Digits(unit), tail);
    AppendCString(name, Digits(unit) + tail);
  }

  lemma AppendCString(a: string, b: string)
    requires CString(a) && CString(b)
    ensures CString(a + b)
  {
    var s := a + b;
    forall k | 0 <= k < |s| ensures s[k] != '\0' {
      if k < |a| { assert s[k] == a[k]; }
      else { assert s[k] == b[k - |a|]; }
    }
  }

  lemma NoSliceFormat(dv: DevSw, unit: nat, partition: int, prev: string)
    requires dv.dtype == DevtDisk && 0 <= partition < MAXPARTITIONS
    ensures var letter := [('a' as int + partition) as char];
            var s := FmtDev(DevDesc(dv, DiskKind(unit, -1, partition)), prev);
            && s == dv.name + Digits(unit) + "s" + "-1" + letter + ":"
            && s != dv.name + (Digits(unit) + (letter + ":"))
  {
    assert Itoa(-1) == "-1" by { assert Digits(1) == "1"; }
    assert CharOf(partition + 'a' as int) == ('a' as int + partition) as char;
  }

  /** The disk case as written accepts or rejects `disk:` depending on stray
      memory: with the scan pointer at `x` it reports EINVAL, where the
      scan pointer set to the remainder accepts with every field -1. */
  lemma DiskStrayRejects()
    ensures ParseDiskAsWritten(":", "x") == Failure(EINVAL)
    ensures ParseDisk(":") == Success((DiskKind(-1, -1, -1), ""))
  {
  }

  /** ... and with the scan pointer at `:/boot` it returns a path that is
      not part of the spec at all. */
  lemma DiskStrayPath()
    ensures ParseDiskAsWritten("", ":/boot") == Success((DiskKind(-1, -1, -1), "/boot"))
    ensures !IsSuffix("/boot", "")
  {
    assert ":/boot"[1..] == "/boot";
  }

  lemma NetStrayRejects()
    ensures ParseNetAsWritten("", "x") == Failure(EINVAL)
    ensures ParseNet("") == Success((NetKind(0), ""))
  {
  }

  /** Status of ofw_parseofwdev. */
  datatype OfwStatus = Ok | Err(e: DevError) | Stray(v: int)

  /** The status and the disk fields the call leaves in the descriptor. */
  datatype OfwResult = OfwResult(status: OfwStatus, unit: int, slice: int, partition: int)

  /** strrchr(s, '@'). */
  function LastAt(s: string): (r: Option<nat>)
    ensures r.None? <==> '@' !in s
    ensures r.Some? ==> r.value < |s| && s[r.value] == '@' && '@' !in s[r.value + 1..]
  {
    if |s| == 0 then None
    else if s[|s| - 1] == '@' then Some(|s| - 1)
    else
      var r := LastAt(s[..|s| - 1]);
      assert s == s[..|s| - 1] + [s[|s| - 1]];
      if r.Some? then
        assert s[r.value + 1..] == s[..|s| - 1][r.value + 1..] + [s[|s| - 1]];
        r
      else r
  }

  /** The character after the `:` at cp, or NUL at the end of the text. */
  function NextChar(cp: string): int
    requires |cp| > 0
  {
    if |cp| > 1 then cp[1] as int else 0
  }

  /** ofw_parseofwdev up to its last assignment: the firmware path ends in
      `@unit,slice:letter`; fields are stored as they are read, the slice
      plus one. `finish` is the status of a complete parse. */
  function ParseOfwDevThen(unit: int, slice: int, partition: int, spec: string, finish: OfwStatus): (r: OfwResult)
    requires !finish.Err?
    ensures '@' !in spec ==> r == OfwResult(Err(EINVAL), unit, slice, partition)
    ensures r.status.Err? || r.status == finish
    ensures r.status == Err(EUNIT) ==> r.unit == 0
    ensures r.status == finish ==> r.unit >= 0 && r.slice >= 1
  {
    match LastAt(spec)
    case None => OfwResult(Err(EINVAL), unit, slice, partition)
    case Some(at) => OfwAfterAt(spec[at + 1..], slice, partition, finish)
  }

  /** The unit number after the `@`. */
  function OfwAfterAt(cp: string, slice: int, partition: int, finish: OfwStatus): (r: OfwResult)
    requires !finish.Err?
    ensures r.status.Err? || r.status == finish
    ensures r.unit >= 0
    ensures |cp| == 0 || !IsDigitIn(cp[0], 10) ==> r.status == Err(EUNIT)
    ensures r.status == Err(EUNIT) ==> r.unit == 0
    ensures r.status == finish ==> r.slice >= 1
  {
    var u := Strtol(cp, 10);
    if u.len == 0 then OfwResult(Err(EUNIT), u.value, slice, partition)
    else OfwFromComma(u.value, cp[u.len..], slice, partition, finish)
  }

  /** `,` and the slice number, then `:` and the partition letter. */
  function OfwFromComma(unit: int, cp: string, slice: int, partition: int, finish: OfwStatus): (r: OfwResult)
    requires !finish.Err?
    ensures r.unit == unit
    ensures r.status == Err(ESLICE) || r.status == Err(EPART) || r.status == finish
    ensures r.status == finish ==> r.slice >= 1
  {
    if |cp| == 0 || cp[0] != ',' then OfwResult(Err(ESLICE), unit, slice, partition)
    else
      var cp := cp[1..];
      var s := Strtol(cp, 10);
      if s.len == 0 then OfwResult(Err(ESLICE), unit, s.value + 1, partition)
      else
        var cp := cp[s.len..];
        if |cp| == 0 || cp[0] != ':' then OfwResult(Err(EPART), unit, s.value + 1, partition)
        else OfwResult(finish, unit, s.value + 1, NextChar(cp) - 'a' as int)
  }

  /** As written, the function ends without a return statement after the
      last assignment, so the caller receives an arbitrary value: `stray`. */
  function ParseOfwDevAsWritten(unit: int, slice: int, partition: int, spec: string, stray: int): (r: OfwResult)
    ensures r.status.Err? || r.status == Stray(stray)
  {
    ParseOfwDevThen(unit, slice, partition, spec, Stray(stray))
  }

  /** ofw_parseofwdev with the evidently intended `return 0` at the end. */
  function ParseOfwDev(unit: int, slice: int, partition: int, spec: string): (r: OfwResult)
    ensures r.status.Ok? || r.status.Err?
    ensures '@' !in spec ==> r == OfwResult(Err(EINVAL), unit, slice, partition)
    ensures r.status.Ok? ==> r.unit >= 0 && r.slice >= 1
    ensures r.status == Err(EUNIT) ==> r.unit == 0
  {
    ParseOfwDevThen(unit, slice, partition, spec, Ok)
  }

  /** The firmware text ending a disk path: `@unit,slice:letter`. */
  function OfwText(unit: nat, slice: nat, letter: char): string {
    "@" + Digits(unit) + OfwTail(slice, letter)
  }

  function OfwTail(slice: nat, letter: char): string {
    "," + Digits(slice) + (":" + [letter])
  }

  lemma {:induction false} LastAtOfText(prefix: string, unit: nat, slice: nat, letter: char)
    requires letter != '@'
    ensures LastAt(prefix + OfwText(unit, slice, letter)) == Some(|prefix|)
    ensures (prefix + OfwText(unit, slice, letter))[|prefix| + 1..] == Digits(unit) + OfwTail(slice, letter)
  {
    var s := prefix + OfwText(unit, slice, letter);
    var after := Digits(unit) + OfwTail(slice, letter);
    assert OfwText(unit, slice, letter) == "@" + after;
    assert s == prefix + ("@" + after);
    assert s[|prefix|] == '@';
    assert s[|prefix| + 1..] == after;
    assert '@' !in after by {
      var du, ds := Digits(unit), Digits(slice);
      forall k | 0 <= k < |after| ensures after[k] != '@' {
        if k < |du| {
          assert after[k] == du[k] && IsDigitIn(du[k], 10);
        } else if k == |du| {
        } else if k < |du| + 1 + |ds| {
          assert after[k] == ds[k - |du| - 1] && IsDigitIn(ds[k - |du| - 1], 10);
        }
      }
    }
    LastAtLast(s, |prefix|);
  }

  /** strrchr finds an `@` with none after it. */
  lemma {:induction false} LastAtLast(s: string, k: nat)
    requires k < |s| && s[k] == '@' && '@' !in s[k + 1..]
    ensures LastAt(s) == Some(k)
    decreases |s|
  {
    if k < |s| - 1 {
      assert s[|s| - 1] == s[k + 1..][|s| - 2 - k];
      var p := s[..|s| - 1];
      assert p[k + 1..] == s[k + 1..][..|s| - 2 - k];
      LastAtLast(p, k);
    }
  }

  lemma OfwFromCommaText(unit: int, slice: nat, letter: char, s0: int, p0: int, finish: OfwStatus)
    requires !finish.Err?
    ensures OfwFromComma(unit, OfwTail(slice, letter), s0, p0, finish)
            == OfwResult(finish, unit, slice + 1, letter as int - 'a' as int)
  {
    var tail := ":" + [letter];
    var rest := OfwTail(slice, letter);
    assert rest[1..] == Digits(slice) + tail;
    ScanItoa10(slice, tail);
    assert (Digits(slice) + tail)[|Digits(slice)|..] == tail;
    assert NextChar(tail) == letter as int;
  }

  lemma OfwAfterAtText(unit: nat, slice: nat, letter: char, s0: int, p0: int, finish: OfwStatus)
    requires !finish.Err?
    ensures OfwAfterAt(Digits(unit) + OfwTail(slice, letter), s0, p0, finish)
            == OfwResult(finish, unit, slice + 1, letter as int - 'a' as int)
  {
    var rest := OfwTail(slice, letter);
    var cp := Digits(unit) + rest;
    ScanItoa10(unit, rest);
    assert cp[|Digits(unit)|..] == rest;
    OfwFromCommaText(unit, slice, letter, s0, p0, finish);
  }

  lemma OfwThenText(u0: int, s0: int, p0: int, prefix: string, unit: nat, slice: nat, letter: char, finish: OfwStatus)
    requires !finish.Err?
    requires letter != '@'
    ensures ParseOfwDevThen(u0, s0, p0, prefix + OfwText(unit, slice, letter), finish)
            == OfwResult(finish, unit, slice + 1, letter as int - 'a' as int)
  {
    LastAtOfText(prefix, unit, slice, letter);
    OfwAfterAtText(unit, slice, letter, s0, p0, finish);
  }

  /** A firmware path ending in `@unit,slice:letter` yields the unit, the
      slice plus one and the partition letter, after any prefix. */
  lemma ParseOfwDevText(u0: int, s0: int, p0: int, prefix: string, unit: nat, slice: nat, letter: char)
    requires letter != '@'
    ensures ParseOfwDev(u0, s0, p0, prefix + OfwText(unit, slice, letter))
            == OfwResult(Ok, unit, slice + 1, letter as int - 'a' as int)
  {
    OfwThenText(u0, s0, p0, prefix, unit, slice, letter, Ok);
  }

  /** As written, a well-formed firmware path such as `/disk@0,0:a` still
      reports whatever status was left behind: a stray value looks like an
      error to the caller even though every field was stored. */
  lemma OfwStrayStatus(prefix: string, unit: nat, slice: nat, letter: char, stray: int)
    requires letter != '@'
    ensures var r := ParseOfwDevAsWritten(-1, -1, -1, prefix + OfwText(unit, slice, letter), stray);
            r == OfwResult(Stray(stray), unit, slice + 1, letter as int - 'a' as int)
  {
    OfwThenText(-1, -1, -1, prefix, unit, slice, letter, Stray(stray));
  }
}

=== FILE: nfs_async.dfy ===
/**
 * The dispatch decision of nfs_asyncio: hand a buffer to an nfsiod
 * (binding an idle one to the mount if there is one), make the caller
 * wait for the mount's queue to drain, or refuse with EIO so that the
 * caller does the transfer synchronously.
 */
module NfsAsync {
  import opened NfsBuf
  import opened Results

  /** Size of the nfsiod table (NFS_MAXASYNCDAEMON). */
  const NFS_MAXASYNCDAEMON: int := 20

  /** One slot of the nfsiod table: `idle` is nfs_iodwant[i] != NULL (the
      daemon sleeps waiting for work), `mount` is nfs_iodmount[i]. */
  datatype Iod = Iod(idle: bool, mount: Option<nat>)

  /** The mount's async queue: nm_bufqiods, nm_bufqlen, nm_bufq (buffer
      identities, head first) and nm_bufqwant. */
  datatype MountQueue = MountQueue(id: nat, iods: int, len: int, bufs: seq<nat>, want: bool)

  /** The shared state nfs_asyncio reads and changes. */
  datatype Dispatch = Dispatch(iods: seq<Iod>, mnt: MountQueue)

  datatype AsyncResult =
    | Enqueued(d: Dispatch)   // queued at the tail; returns 0
    | MustWait(d: Dispatch)   // queue full: sleep on nm_bufq, then AfterWake
    | Refused                 // EIO: do the I/O synchronously
    | Interrupted             // EINTR while waiting

  ghost predicate NoIdle(iods: seq<Iod>) {
    forall j :: 0 <= j < |iods| ==> !iods[j].idle
  }

  /** Index of the first idle daemon at or after i. */
  function FirstIdleFrom(iods: seq<Iod>, i: nat): (r: Option<nat>)
    requires i <= |iods|
    ensures r.Some? ==> i <= r.value < |iods| && iods[r.value].idle
    ensures r.Some? ==> forall j :: i <= j < r.value ==> !iods[j].idle
    ensures r.None? ==> forall j :: i <= j < |iods| ==> !iods[j].idle
    decreases |iods| - i
  {
    if i == |iods| then None
    else if iods[i].idle then Some(i)
    else FirstIdleFrom(iods, i + 1)
  }

  /** The mount's queue grows by exactly the one buffer, at the tail. */
  function Enqueue(d: Dispatch, buf: nat): Dispatch {
    d.(mnt := d.mnt.(bufs := d.mnt.bufs + [buf], len := d.mnt.len + 1))
  }

  /** The `again:` part of nfs_asyncio: find an nfsiod, then queue or wait. */
  function Again(numasync: int, d: Dispatch, buf: nat): (r: AsyncResult)
    requires |d.iods| == NFS_MAXASYNCDAEMON
    ensures r.Refused? <==> NoIdle(d.iods) && d.mnt.iods <= 0
    ensures !r.Interrupted?
    ensures !r.Refused? ==>
              var bound := match FirstIdleFrom(d.iods, 0)
                           case Some(i) => d.(iods := d.iods[i := Iod(false, Some(d.mnt.id))],
                                              mnt := d.mnt.(iods := d.mnt.iods + 1))
                           case None => d;
              && (r.Enqueued? <==> d.mnt.len < 2 * numasync)
              && (r.Enqueued? ==> r.d == Enqueue(bound, buf))
              && (r.MustWait? ==> r.d == bound.(mnt := bound.mnt.(want := true)))
  {
    var first := FirstIdleFrom(d.iods, 0);
    var bound := match first
                 case Some(i) => d.(iods := d.iods[i := Iod(false, Some(d.mnt.id))],
                                    mnt := d.mnt.(iods := d.mnt.iods + 1))
                 case None => d;
    if first.Some? || d.mnt.iods > 0 then
      if bound.mnt.len >= 2 * numasync then MustWait(bound.(mnt := bound.mnt.(want := true)))
      else Enqueued(Enqueue(bound, buf))
    else
      Refused
  }

  /** nfs_asyncio entry: with no async daemons configured, refuse at once. */
  function Submit(numasync: int, d: Dispatch, buf: nat): (r: AsyncResult)
    requires |d.iods| == NFS_MAXASYNCDAEMON
    ensures numasync == 0 ==> r == Refused
    ensures r.Refused? <==> numasync == 0 || (NoIdle(d.iods) && d.mnt.iods <= 0)
    ensures r.Enqueued? ==> r.d.mnt.bufs == d.mnt.bufs + [buf] && r.d.mnt.len == d.mnt.len + 1
    ensures r.Enqueued? ==> d.mnt.len < 2 * numasync
    ensures r.MustWait? ==> r.d.mnt.bufs == d.mnt.bufs && d.mnt.len >= 2 * numasync
    ensures !r.Interrupted?
  {
    if numasync == 0 then Refused else Again(numasync, d, buf)
  }

  /** After a sleep on the full queue: an interrupt ends the call; a mount
      that lost all its nfsiods starts over at `again:`; otherwise the
      queue length is tested again. */
  function AfterWake(numasync: int, d: Dispatch, buf: nat, interrupted: bool): (r: AsyncResult)
    requires |d.iods| == NFS_MAXASYNCDAEMON
    ensures interrupted ==> r == Interrupted
    ensures !interrupted && d.mnt.iods == 0 ==> r == Again(numasync, d, buf)
    ensures !interrupted && d.mnt.iods != 0 ==>
              (r.Enqueued? <==> d.mnt.len < 2 * numasync) && (r.Enqueued? ==> r.d == Enqueue(d, buf)) &&
              (r.MustWait? ==> r.d.iods == d.iods && r.d.mnt.bufs == d.mnt.bufs)
  {
    if interrupted then Interrupted
    else if d.mnt.iods == 0 then Again(numasync, d, buf)
    else if d.mnt.len >= 2 * numasync then MustWait(d.(mnt := d.mnt.(want := true)))
    else Enqueued(Enqueue(d, buf))
  }

  /** The mount's queue bookkeeping: the length counter matches the queue
      and never exceeds twice the number of async daemons. */
  ghost predicate QueueBounded(numasync: int, d: Dispatch) {
    d.mnt.len == |d.mnt.bufs| && d.mnt.len <= 2 * numasync
  }

  /** Submitting never breaks the queue bound: a buffer is only added while
      the queue is below it, and waiting leaves the queue as it was. */
  lemma SubmitKeepsQueueBounded(numasync: int, d: Dispatch, buf: nat)
    requires |d.iods| == NFS_MAXASYNCDAEMON && QueueBounded(numasync, d)
    ensures var r := Submit(numasync, d, buf);
            (r.Enqueued? || r.MustWait?) ==> QueueBounded(numasync, r.d)
  {
  }

  /** A daemon is bound to the mount exactly when one was idle: it is the
      first idle slot, now busy and pointing at this mount, and the mount's
      daemon count goes up by one; no other slot changes. */
  lemma SubmitBindsFirstIdle(numasync: int, d: Dispatch, buf: nat, i: nat)
    requires |d.iods| == NFS_MAXASYNCDAEMON && numasync != 0
    requires i < |d.iods| && d.iods[i].idle && forall j :: 0 <= j < i ==> !d.iods[j].idle
    ensures var r := Submit(numasync, d, buf);
            (r.Enqueued? || r.MustWait?) &&
            r.d.iods == d.iods[i := Iod(false, Some(d.mnt.id))] &&
            r.d.mnt.iods == d.mnt.iods + 1
  {
    var f := FirstIdleFrom(d.iods, 0);
    assert f == Some(i);
  }
}

=== FILE: nfs_buf.dfy ===
/**
 * Cache buffers and per-file nodes of the network-filesystem client
 * (struct buf and struct nfsnode, reduced to the fields the buffered I/O
 * path reads and writes), with the block arithmetic shared by the read
 * path, the write path and nfs_doio.
 */
module NfsBuf {

  /** Device block granularity (DEV_BSIZE) and the page size of the VM system. */
  const DEV_BSIZE: int := 512
  const PAGE_SIZE: int := 4096

  /** errno values the client returns itself. */
  const EINTR: int := 4
  const EIO: int := 5
  const EINVAL: int := 22
  const EFBIG: int := 27

  /** Vnode kinds the buffered I/O path distinguishes. */
  datatype VType = VReg | VDir | VLnk | VOther

  /** Write stability levels of the WRITE procedure, section 3.3.7 of RFC 1813. */
  datatype StableHow = Unstable | DataSync | FileSync

  /** The b_flags bits this model tracks. */
  datatype BufFlag =
    | Cache           // B_CACHE: contents are valid cached data
    | DelWri          // B_DELWRI: delayed write pending
    | NeedCommit      // B_NEEDCOMMIT: written UNSTABLE, a COMMIT is still owed
    | Async           // B_ASYNC
    | Inval           // B_INVAL
    | Error           // B_ERROR
    | NoCache         // B_NOCACHE
    | InvalAfterWrite // B_INVAFTERWRITE
    | Eintr           // B_EINTR
    | Paging          // B_PAGING
    | Cluster         // B_CLUSTER
    | ClusterOk       // B_CLUSTEROK
    | Done            // B_DONE

  /**
   * A cache buffer. Offsets validoff/validend and dirtyoff/dirtyend are
   * byte offsets within the buffer; blkno is the DEV_BSIZE block of the
   * buffer's first byte, so blkno * DEV_BSIZE is its file offset.
   */
  datatype Buf = Buf(
    lblkno: int,
    blkno: int,
    bcount: int,
    bufsize: int,
    validoff: int,
    validend: int,
    dirtyoff: int,
    dirtyend: int,
    resid: int,
    error: int,
    flags: set<BufFlag>)
  {
    /** The source's test for "has a dirty region": b_dirtyend > 0. */
    predicate IsDirty() {
      dirtyend > 0
    }

    /** Byte x of the buffer is known to hold correct data. */
    ghost predicate InValid(x: int) {
      validoff <= x < validend
    }

    /** Byte x of the buffer holds data not yet written to the server. */
    ghost predicate InDirty(x: int) {
      dirtyend > 0 && dirtyoff <= x < dirtyend
    }
  }

  /** The n_flag bits this model tracks. */
  datatype NodeFlag =
    | Modified     // NMODIFIED
    | WriteErr     // NWRITEERR
    | FlushInProg  // NFLUSHINPROG
    | FlushWant    // NFLUSHWANT
    | NonCache     // NQNFSNONCACHE

  /** Cached state of one remote file. */
  datatype Node = Node(
    size: int,        // n_size
    mtime: int,       // n_mtime
    lrev: int,        // n_lrev: revision of the lease last obtained
    brev: int,        // n_brev: revision the cached buffers belong to
    error: int,       // n_error: latched write error
    flags: set<NodeFlag>)

  function Min(a: int, b: int): int {
    if a < b then a else b
  }

  function Max(a: int, b: int): int {
    if a < b then b else a
  }

  const INT_MIN: int := -0x8000_0000
  const INT_MAX: int := 0x7fff_ffff

  /** Storing a 64-bit file-offset difference in a C `int`: the low 32
      bits, read as two's complement. */
  function ToInt32(x: int): (r: int)
    ensures INT_MIN <= r <= INT_MAX
    ensures (x - r) % 0x1_0000_0000 == 0
    ensures INT_MIN <= x <= INT_MAX ==> r == x
  {
    var low := x % 0x1_0000_0000;
    if low > INT_MAX then low - 0x1_0000_0000 else low
  }

  predicate IsPowerOfTwo(n: int)
    decreases n
  {
    n == 1 || (n > 1 && n % 2 == 0 && IsPowerOfTwo(n / 2))
  }

  /** A mount's f_iosize: a power-of-two multiple of DEV_BSIZE. For such a
      size and a non-negative offset, `off & (biosize - 1)` equals
      `off % biosize`, which is how the model writes it. */
  predicate ValidBiosize(biosize: int) {
    DEV_BSIZE <= biosize && biosize % DEV_BSIZE == 0 && IsPowerOfTwo(biosize)
  }

  /** `(x + DEV_BSIZE - 1) & ~(DEV_BSIZE - 1)` on a two's complement integer:
      the least multiple of DEV_BSIZE that is at least x. */
  function RoundUpDev(x: int): (r: int)
    ensures r % DEV_BSIZE == 0
    ensures x <= r < x + DEV_BSIZE
  {
    var y := x + DEV_BSIZE - 1;
    y - y % DEV_BSIZE
  }

  /** A multiple of DEV_BSIZE below another multiple plus DEV_BSIZE is at most it. */
  lemma MultipleBelow(r: int, b: int)
    requires r % DEV_BSIZE == 0 && b % DEV_BSIZE == 0 && r < b + DEV_BSIZE
    ensures r <= b
  {
    var q := r / DEV_BSIZE;
    var p := b / DEV_BSIZE;
    assert r == q * DEV_BSIZE && b == p * DEV_BSIZE;
  }

  /** The b_blkno nfs_getcacheblk assigns: for a regular file the block's
      file offset in DEV_BSIZE units; other kinds keep what getblk gave. */
  function CacheBlkno(vtype: VType, lbn: int, biosize: int, prior: int): (r: int)
    requires ValidBiosize(biosize)
    ensures vtype == VReg ==> r * DEV_BSIZE == lbn * biosize
    ensures vtype != VReg ==> r == prior
  {
    if vtype == VReg then
      var per := biosize / DEV_BSIZE;
      assert per * DEV_BSIZE == biosize;
      assert lbn * per * DEV_BSIZE == lbn * (per * DEV_BSIZE);
      lbn * per
    else prior
  }

  /** Trim the dirty range so it does not run past end-of-file, as both
      nfs_write and the write side of nfs_doio do before using it. */
  function ClipDirty(b: Buf, nsize: int): (r: Buf)
    ensures b.blkno * DEV_BSIZE + r.dirtyend <= nsize
    ensures r.dirtyend <= b.dirtyend
    ensures r.dirtyend == b.dirtyend || b.blkno * DEV_BSIZE + r.dirtyend == nsize
    ensures r == b.(dirtyend := r.dirtyend)
  {
    if b.blkno * DEV_BSIZE + b.dirtyend > nsize then
      b.(dirtyend := nsize - b.blkno * DEV_BSIZE)
    else b
  }
}

=== FILE: nfs_coherency.dfy ===
/**
 * Cache coherency of the client: the flag machine of nfs_vinvalbuf
 * (one flusher per file, waiters woken when it ends), the
 * modification-time polling done before a read, and the lease checks
 * done before a read or a write on a lease (NQNFS) mount.
 */
module NfsCoherency {
  import opened NfsBuf
  import opened Results

  /** How nfs_vinvalbuf starts. */
  datatype FlushStart =
    | Doomed                    // vnode being reclaimed (VXLOCK): return 0 at once
    | WaitForFlusher(node: Node) // another flush runs: ask to be woken and sleep
    | StartFlush(node: Node)     // this caller becomes the flusher

  /** Other flags than the two flush flags and NMODIFIED. */
  function Untracked(flags: set<NodeFlag>): set<NodeFlag> {
    flags - {Modified, FlushInProg, FlushWant}
  }

  function VinvalbufStart(node: Node, vxlock: bool): (r: FlushStart)
    ensures vxlock ==> r == Doomed
    ensures r.WaitForFlusher? <==> !vxlock && FlushInProg in node.flags
    ensures r.WaitForFlusher? ==> r.node == node.(flags := node.flags + {FlushWant})
    ensures r.StartFlush? ==> FlushInProg !in node.flags && r.node == node.(flags := node.flags + {FlushInProg})
  {
    if vxlock then Doomed
    else if FlushInProg in node.flags then WaitForFlusher(node.(flags := node.flags + {FlushWant}))
    else StartFlush(node.(flags := node.flags + {FlushInProg}))
  }

  /** One call of vinvalbuf in the retry loop: whether it failed, and
      whether nfs_sigintr then reported a signal. */
  datatype Attempt = Attempt(failed: bool, signalled: bool)

  /** The retry loop of nfs_vinvalbuf over the attempts the kernel made:
      Some(false) once an attempt succeeds, Some(true) when a failed
      attempt is followed by a signal on an interruptible call, None when
      the attempts run out with the flush still failing. */
  function FlushLoop(intr: bool, attempts: seq<Attempt>): (r: Option<bool>)
    ensures r == Some(true) <==> intr && exists k :: StopsAt(intr, attempts, k) && attempts[k].failed
    ensures r == Some(false) <==> exists k :: StopsAt(intr, attempts, k) && !attempts[k].failed
    ensures r.None? ==> forall k :: 0 <= k < |attempts| ==> attempts[k].failed
    decreases |attempts|
  {
    if |attempts| == 0 then None
    else if !attempts[0].failed then
      assert StopsAt(intr, attempts, 0);
      Some(false)
    else if intr && attempts[0].signalled then
      assert StopsAt(intr, attempts, 0);
      Some(true)
    else
      StopsAtShift(intr, attempts);
      FlushLoop(intr, attempts[1..])
  }

  /** Attempt k is where the loop leaves: every earlier attempt failed
      without an interrupting signal, and attempt k either succeeded or
      failed and was interrupted. */
  ghost predicate StopsAt(intr: bool, attempts: seq<Attempt>, k: int) {
    && 0 <= k < |attempts|
    && (!attempts[k].failed || (intr && attempts[k].signalled))
    && forall j :: 0 <= j < k ==> attempts[j].failed && !(intr && attempts[j].signalled)
  }

  /** When the first attempt neither ends nor interrupts the loop, the
      loop leaves at k + 1 exactly when the rest of it leaves at k. */
  lemma StopsAtShift(intr: bool, attempts: seq<Attempt>)
    requires |attempts| > 0 && attempts[0].failed && !(intr && attempts[0].signalled)
    ensures forall k :: StopsAt(intr, attempts, k + 1) <==> StopsAt(intr, attempts[1..], k)
    ensures !StopsAt(intr, attempts, 0)
  {
    forall k ensures StopsAt(intr, attempts, k + 1) <==> StopsAt(intr, attempts[1..], k) {
      if StopsAt(intr, attempts[1..], k) {
        forall j | 0 <= j < k + 1 ensures attempts[j].failed && !(intr && attempts[j].signalled) {
          if j > 0 { assert attempts[j] == attempts[1..][j - 1]; }
        }
      }
      if StopsAt(intr, attempts, k + 1) {
        forall j | 0 <= j < k ensures attempts[1..][j].failed && !(intr && attempts[1..][j].signalled) {
          assert attempts[1..][j] == attempts[j + 1];
        }
      }
    }
  }

  /** End of nfs_vinvalbuf for the flusher: the flush flag is dropped and
      waiters are woken in both outcomes; NMODIFIED is cleared only when
      the flush completed. */
  datatype FlushEnd = FlushEnd(node: Node, ret: int, wakeup: bool)

  function VinvalbufFinish(node: Node, interrupted: bool): (r: FlushEnd)
    ensures FlushInProg !in r.node.flags && FlushWant !in r.node.flags
    ensures r.wakeup <==> FlushWant in node.flags
    ensures r.ret == (if interrupted then EINTR else 0)
    ensures Modified in r.node.flags <==> interrupted && Modified in node.flags
    ensures Untracked(r.node.flags) == Untracked(node.flags)
    ensures r.node == node.(flags := r.node.flags)
  {
    var f := if interrupted then node.flags - {FlushInProg} else node.flags - {Modified, FlushInProg};
    FlushEnd(node.(flags := f - {FlushWant}), if interrupted then EINTR else 0, FlushWant in node.flags)
  }

  /** Where one call of nfs_vinvalbuf gets to with the attempts given. */
  datatype Vinval =
    | Flushed(end: FlushEnd)   // returned, as the flusher or at once for a doomed vnode
    | Sleeping(node: Node)     // another flush is in progress: asleep until woken
    | StillFailing             // the attempts given ran out before the loop ended

  /** nfs_vinvalbuf. `mountIntr` is NFSMNT_INT and `intrflg` the caller's
      request to be interruptible. */
  function Vinvalbuf(node: Node, vxlock: bool, mountIntr: bool, intrflg: bool,
                     attempts: seq<Attempt>): (r: Vinval)
    ensures vxlock ==> r == Flushed(FlushEnd(node, 0, false))
    ensures r.Sleeping? <==> !vxlock && FlushInProg in node.flags
    ensures r.Sleeping? ==> FlushWant in r.node.flags && r.node == node.(flags := r.node.flags)
    ensures r.Flushed? && !vxlock ==> FlushInProg !in r.end.node.flags && FlushWant !in r.end.node.flags
    ensures r.Flushed? && r.end.ret != 0 ==> r.end.ret == EINTR && mountIntr && intrflg
    ensures r.Flushed? && r.end.ret == 0 && !vxlock ==> Modified !in r.end.node.flags
    ensures r.Flushed? ==> Untracked(r.end.node.flags) == Untracked(node.flags)
  {
    match VinvalbufStart(node, vxlock)
    case Doomed => Flushed(FlushEnd(node, 0, false))
    case WaitForFlusher(waiting) => Sleeping(waiting)
    case StartFlush(busy) =>
      match FlushLoop(mountIntr && intrflg, attempts)
      case None => StillFailing
      case Some(interrupted) => Flushed(VinvalbufFinish(busy, interrupted))
  }

  /** Two callers never flush at once: while one holds NFLUSHINPROG any
      other caller waits, and when the flusher finishes the next caller
      can start. */
  lemma SingleFlusher(node: Node, interrupted: bool)
    requires FlushInProg !in node.flags
    ensures var s := VinvalbufStart(node, false);
            s.StartFlush? &&
            VinvalbufStart(s.node, false).WaitForFlusher? &&
            VinvalbufStart(VinvalbufFinish(s.node, interrupted).node, false).StartFlush?
  {
  }

  /** Reply of a GETATTR: the server's modification time or an error. */
  datatype AttrReply = AttrOk(mtime: int) | AttrErr(err: int)

  /** Outcome of a coherency check before a read or a write. A failure
      carries the node as the code leaves it: changes made before the
      failing step stay made. */
  datatype Coherence =
    | Proceed(node: Node, invalidated: bool)
    | Fail(node: Node, err: int)
    | Panic               // "nfs: bioread, not dir"

  /** The node after a completed invalidation of all its buffers. */
  function Invalidated(node: Node): Node {
    VinvalbufFinish(node.(flags := node.flags + {FlushInProg}), false).node
  }

  /** The node after an invalidation that a signal interrupted: the flush
      flags are dropped and NMODIFIED stays as it was. */
  function Interrupted(node: Node): Node {
    VinvalbufFinish(node.(flags := node.flags + {FlushInProg}), true).node
  }

  /** Modification-time polling at the top of nfs_bioread on a non-lease
      mount. A locally modified directory is flushed before its attributes
      are fetched; a locally modified regular file only has its attributes
      refetched; an unmodified file is invalidated exactly when the
      server's modification time differs. A flush ends only by completing
      or by EINTR (`flushInterrupted`). */
  function PollCheck(node: Node, vtype: VType, nqnfs: bool, attr: AttrReply,
                     flushInterrupted: bool): (r: Coherence)
    ensures nqnfs ==> r == Proceed(node, false)
    ensures !nqnfs ==> (r.Panic? <==> Modified in node.flags && vtype != VReg && vtype != VDir)
    ensures r.Proceed? && !nqnfs ==> attr.AttrOk? && r.node.mtime == attr.mtime
    ensures r.Proceed? && !nqnfs ==>
              (r.invalidated <==> (Modified in node.flags && vtype == VDir) ||
                                  (Modified !in node.flags && node.mtime != attr.mtime))
    ensures r.Proceed? && r.invalidated ==> Modified !in r.node.flags
    ensures r.Proceed? && !r.invalidated ==> r.node == node.(mtime := r.node.mtime)
    ensures !nqnfs && Modified !in node.flags && attr.AttrOk? && node.mtime == attr.mtime ==>
              r == Proceed(node, false)
    ensures r.Fail? ==> (attr.AttrErr? && r.err == attr.err) || (flushInterrupted && r.err == EINTR)
    // which checks fail: a getattr error, or an interruption of a flush that is performed
    ensures !nqnfs && !r.Panic? ==>
              (r.Fail? <==> attr.AttrErr? ||
                            (flushInterrupted &&
                             ((Modified in node.flags && vtype == VDir) ||
                              (Modified !in node.flags && attr.AttrOk? && node.mtime != attr.mtime))))
    ensures !nqnfs && flushInterrupted &&
            ((Modified in node.flags && vtype == VDir) ||
             (Modified !in node.flags && attr.AttrOk? && node.mtime != attr.mtime)) ==>
              r == Fail(Interrupted(node), EINTR)
    // a failure never adopts the server's modification time
    ensures r.Fail? ==> r.node.mtime == node.mtime && Untracked(r.node.flags) == Untracked(node.flags)
    // a modified directory is flushed before the getattr: a completed flush
    // stays done when the getattr then fails, an interrupted one leaves it modified
    ensures r.Fail? && Modified in node.flags && vtype == VDir ==>
              if flushInterrupted then r.err == EINTR && Modified in r.node.flags
              else r.node == Invalidated(node) && Modified !in r.node.flags
    // on every other path a getattr error comes before any flush
    ensures r.Fail? && attr.AttrErr? && !(Modified in node.flags && vtype == VDir) ==> r.node == node
    // an interrupted flush of a changed clean file leaves it clean and unflushed
    ensures r.Fail? && attr.AttrOk? ==>
              flushInterrupted && r.err == EINTR && (Modified in r.node.flags <==> Modified in node.flags)
  {
    if nqnfs then Proceed(node, false)
    else if Modified in node.flags then
      if vtype != VReg && vtype != VDir then Panic
      else if vtype == VDir && flushInterrupted then Fail(Interrupted(node), EINTR)
      else
        var node' := if vtype == VDir then Invalidated(node) else node;
        match attr
        case AttrErr(e) => Fail(node', e)
        case AttrOk(m) => Proceed(node'.(mtime := m), vtype == VDir)
    else
      match attr
      case AttrErr(e) => Fail(node, e)
      case AttrOk(m) =>
        if node.mtime != m then
          if flushInterrupted then Fail(Interrupted(node), EINTR)
          else Proceed(Invalidated(node).(mtime := m), true)
        else Proceed(node, false)
  }

  /** Polling settles: once a check has proceeded, a second check that
      sees the same modification time proceeds without invalidating and
      without changing the node. */
  lemma PollSettles(node: Node, vtype: VType, m: int, fi: bool, fi': bool)
    requires PollCheck(node, vtype, false, AttrOk(m), fi).Proceed?
    ensures var n := PollCheck(node, vtype, false, AttrOk(m), fi).node;
            PollCheck(n, vtype, false, AttrOk(m), fi') == Proceed(n, false)
  {
  }

  /** Replies of nqnfs_getlease. */
  datatype LeaseReply = Expired | Granted(rev: int) | LeaseErr(err: int)

  /** The renewal loop `do getlease while (error == NQNFS_EXPIRED)`: the
      first reply that is not "expired". */
  function RenewLease(replies: seq<LeaseReply>): (r: LeaseReply)
    requires exists k :: 0 <= k < |replies| && !replies[k].Expired?
    ensures !r.Expired?
    ensures exists k :: 0 <= k < |replies| && replies[k] == r &&
                        forall j :: 0 <= j < k ==> replies[j].Expired?
  {
    if !replies[0].Expired? then replies[0]
    else
      assert exists k :: 0 <= k < |replies[1..]| && !replies[1..][k].Expired? by {
        var k :| 0 <= k < |replies| && !replies[k].Expired?;
        assert replies[1..][k - 1] == replies[k];
      }
      var r := RenewLease(replies[1..]);
      var k :| 0 <= k < |replies[1..]| && replies[1..][k] == r &&
               forall j :: 0 <= j < k ==> replies[1..][j].Expired?;
      assert replies[k + 1] == r;
      assert forall j :: 1 <= j < k + 1 ==> replies[j] == replies[1..][j - 1];
      r
  }

  datatype LeaseMode = ForRead | ForWrite

  /** Lease check on an NQNFS mount before a read (nfs_bioread) or a write
      (nfs_write). `invalid` is NQNFS_CKINVALID: the lease has expired or a
      write lease is not held. A renewed lease whose revision differs from
      the one the buffers belong to, a non-cachable file, or (for reads) a
      locally modified directory invalidates every buffer and adopts the
      new revision. With a valid lease only a modified directory being read
      is invalidated. */
  function LeaseCheck(node: Node, vtype: VType, mode: LeaseMode, invalid: bool,
                      replies: seq<LeaseReply>, flushInterrupted: bool): (r: Coherence)
    requires invalid ==> exists k :: 0 <= k < |replies| && !replies[k].Expired?
    ensures !r.Panic?
    ensures invalid && RenewLease(replies).LeaseErr? ==> r == Fail(node, RenewLease(replies).err)
    ensures invalid && r.Proceed? ==>
              var rev := RenewLease(replies).rev;
              && RenewLease(replies).Granted?
              && r.node.lrev == rev
              && (r.invalidated <==> rev != node.brev || NonCache in node.flags ||
                                     (mode == ForRead && Modified in node.flags && vtype == VDir))
              && (r.invalidated ==> r.node.brev == rev && Modified !in r.node.flags)
              && (!r.invalidated ==> r.node == node.(lrev := rev))
    ensures !invalid && r.Proceed? ==>
              (r.invalidated <==> mode == ForRead && vtype == VDir && Modified in node.flags)
    ensures !invalid && (mode == ForWrite || vtype != VDir || Modified !in node.flags) ==>
              r == Proceed(node, false)
    ensures r.Fail? ==> (invalid && RenewLease(replies).LeaseErr?) || (flushInterrupted && r.err == EINTR)
    // which checks fail: an interruption of a flush that is performed
    ensures invalid && RenewLease(replies).Granted? ==>
              var rev := RenewLease(replies).rev;
              (r.Fail? <==> flushInterrupted &&
                            (rev != node.brev || NonCache in node.flags ||
                             (mode == ForRead && Modified in node.flags && vtype == VDir)))
    ensures !invalid ==>
              (r.Fail? <==> flushInterrupted && mode == ForRead && vtype == VDir && Modified in node.flags)
    // an interrupted flush keeps the renewed lease revision but not the buffers' one
    ensures r.Fail? && invalid && RenewLease(replies).Granted? ==>
              && r.err == EINTR
              && r.node.lrev == RenewLease(replies).rev
              && r.node.brev == node.brev
              && (Modified in r.node.flags <==> Modified in node.flags)
    ensures r.Fail? && !invalid ==>
              r.err == EINTR && r.node.lrev == node.lrev && r.node.brev == node.brev &&
              Modified in r.node.flags
  {
    if invalid then
      match RenewLease(replies)
      case LeaseErr(e) => Fail(node, e)
      case Granted(rev) =>
        var node1 := node.(lrev := rev);
        if rev != node.brev || NonCache in node.flags ||
           (mode == ForRead && Modified in node.flags && vtype == VDir) then
          if flushInterrupted then Fail(Interrupted(node1), EINTR)
          else Proceed(Invalidated(node1).(brev := rev), true)
        else Proceed(node1, false)
    else if mode == ForRead && vtype == VDir && Modified in node.flags then
      if flushInterrupted then Fail(Interrupted(node), EINTR) else Proceed(Invalidated(node), true)
    else Proceed(node, false)
  }

  /** A renewal that moves the lease revision, followed by an interrupted
      flush, leaves the buffers' revision behind the lease's; while that
      lease stays valid, a read of a regular file proceeds on the old
      buffers, because the revisions are compared only on renewal. */
  lemma InterruptedRenewalKeepsStaleBuffers(node: Node, mode: LeaseMode, replies: seq<LeaseReply>)
    requires |replies| > 0 && replies[0].Granted? && replies[0].rev != node.brev
    ensures var r := LeaseCheck(node, VReg, mode, true, replies, true);
            && r.Fail? && r.node.lrev != r.node.brev
            && LeaseCheck(r.node, VReg, ForRead, false, [], false) == Proceed(r.node, false)
  {
    assert RenewLease(replies) == replies[0];
  }
}

=== FILE: nfs_doio.dfy ===
/**
 * Buffer state after a transfer in nfs_doio: the valid range after a
 * read of a regular-file block, and after a write either a clean buffer
 * or one that stays dirty because the write was interrupted or the
 * server only accepted it UNSTABLE and a COMMIT is still owed.
 */
module NfsDoio {
  import opened NfsBuf
  import opened Results
  import NfsWrite
  import NfsRead

  /** The buffer after a read RPC for a regular-file block returned `err`
      with `resid` of the bcount bytes not transferred. */
  function ReadDone(b: Buf, nsize: int, err: int, resid: int): (r: Buf)
    requires 0 <= resid <= b.bcount
    ensures err == 0 ==> r.validoff == 0 && b.bcount - resid <= r.validend <= b.bcount
    ensures err == 0 && resid == 0 ==> r.validend == b.bcount
    ensures err == 0 && resid > 0 ==>
              (r.validend > b.bcount - resid <==> b.blkno * DEV_BSIZE + b.bcount - resid < nsize)
    ensures err == 0 && r.validend > b.bcount - resid ==>
              r.validend == b.bcount || b.blkno * DEV_BSIZE + r.validend == nsize
    ensures err == 0 ==> b.blkno * DEV_BSIZE + r.validend <= Max(nsize, b.blkno * DEV_BSIZE + b.bcount - resid)
    ensures err == 0 ==> r == b.(validoff := 0, validend := r.validend, resid := resid)
    ensures err != 0 ==> r == b.(flags := b.flags + {Error}, error := err, resid := resid)
  {
    if err != 0 then
      b.(flags := b.flags + {Error}, error := err, resid := resid)
    else if resid != 0 then
      var diff := b.bcount - resid;
      var len := nsize - (b.blkno * DEV_BSIZE + diff);
      b.(validoff := 0, validend := if len > 0 then diff + Min(len, resid) else diff, resid := resid)
    else
      b.(validoff := 0, validend := b.bcount, resid := resid)
  }

  /** ReadDone as the code computes it: `len` is an `int`, so the distance
      from the end of the transferred data to end-of-file is cut to 32
      bits before it is compared with 0 and with the residual count. */
  function ReadDoneAsWritten(b: Buf, nsize: int, err: int, resid: int): (r: Buf)
    requires 0 <= resid <= b.bcount
    ensures var dist := nsize - (b.blkno * DEV_BSIZE + b.bcount - resid);
            INT_MIN <= dist <= INT_MAX ==> r == ReadDone(b, nsize, err, resid)
    ensures err == 0 ==> r.validoff == 0 && b.bcount - resid <= r.validend <= b.bcount
  {
    if err != 0 then
      b.(flags := b.flags + {Error}, error := err, resid := resid)
    else if resid != 0 then
      var diff := b.bcount - resid;
      var len := ToInt32(nsize - (b.blkno * DEV_BSIZE + diff));
      b.(validoff := 0, validend := if len > 0 then diff + Min(len, resid) else diff, resid := resid)
    else
      b.(validoff := 0, validend := b.bcount, resid := resid)
  }

  /** A short read of the first block of a file that continues 2^32 + 100
      bytes past the data: the truncated `len` is 100, so only 100 bytes
      of the hole are zero-filled and marked valid, where the full-width
      distance makes the whole buffer valid. With the file continuing
      2^31 + 5 bytes the truncated `len` is negative and no hole byte is
      marked valid. */
  lemma ReadDoneTruncatesLen(b: Buf)
    requires b.blkno == 0 && b.bcount == 8192
    ensures ReadDone(b, 0x1_0000_0000 + 4100, 0, 4192).validend == 8192
    ensures ReadDoneAsWritten(b, 0x1_0000_0000 + 4100, 0, 4192).validend == 4100
    ensures ReadDone(b, 0x8000_0000 + 4005, 0, 4192).validend == 8192
    ensures ReadDoneAsWritten(b, 0x8000_0000 + 4005, 0, 4192).validend == 4000
  {
    assert ToInt32(0x1_0000_0000 + 100) == 100;
    assert ToInt32(0x8000_0000 + 5) == INT_MIN + 5;
  }

  /** A block whose read RPC succeeded, however short the reply, has every
      byte before end-of-file valid from its start, so the copy step of
      nfs_bioread on the block just read copies the whole wanted length. */
  lemma ReadThenCopy(b: Buf, nsize: int, resid: int, on: int, offset: int, uioResid: int)
    requires 0 <= resid <= b.bcount
    requires 0 <= on && 0 < uioResid && 0 <= offset && b.blkno * DEV_BSIZE + on == offset
    ensures var r := ReadDone(b, nsize, 0, resid);
            NfsRead.ReadCopyStep(r, b.bcount, on, offset, uioResid, nsize, false)
              == NfsRead.CopyOut(NfsRead.Wanted(b.bcount, on, uioResid, nsize, offset))
  {
  }

  /** Stability nfs_doio asks for: UNSTABLE only for a plain async write;
      a buffer already owing a commit, not to be cached, or part of a
      cluster is written FILE_SYNC. */
  function RequestedMode(flags: set<BufFlag>): (m: StableHow)
    ensures m == Unstable || m == FileSync
    ensures m == Unstable <==> Async in flags && NeedCommit !in flags && NoCache !in flags && Cluster !in flags
  {
    PlainAsyncMask(flags);
    if flags * {Async, NeedCommit, NoCache, Cluster} == {Async} then Unstable else FileSync
  }

  lemma PlainAsyncMask(flags: set<BufFlag>)
    ensures flags * {Async, NeedCommit, NoCache, Cluster} == {Async} <==>
            Async in flags && NeedCommit !in flags && NoCache !in flags && Cluster !in flags
  {
    var mask := flags * {Async, NeedCommit, NoCache, Cluster};
    if Async in flags && NeedCommit !in flags && NoCache !in flags && Cluster !in flags {
      assert mask == {Async};
    } else {
      assert Async !in mask || NeedCommit in mask || NoCache in mask || Cluster in mask;
    }
  }

  /** Reply of the WRITE RPC: error, the stability the server committed
      to, bytes not written, and whether the server's write verifier
      changed (so all commits on the mount must be redone). */
  datatype WriteReply = WriteReply(err: int, committed: StableHow, resid: int, mustCommit: bool)

  /** The buffer and node after the write side of nfs_doio, the value it
      returns, whether it asks for nfs_clearcommit, and the stability
      requested from the server (None when there was nothing to write).
      Flags are as they stand when biodone is called. */
  datatype WriteResult = WriteResult(b: Buf, node: Node, ret: int, clearCommit: bool, sent: Option<StableHow>)

  /** The write stays dirty: it was interrupted, or the server holds it
      only in unstable storage. */
  predicate KeepsDirty(reply: WriteReply) {
    reply.err == EINTR || (reply.err == 0 && reply.committed == Unstable)
  }

  function WriteDone(b: Buf, node: Node, reply: WriteReply): (r: WriteResult)
    ensures var b1 := ClipDirty(b, node.size);
            && (b1.dirtyend <= b1.dirtyoff ==>
                  r == WriteResult(b1.(resid := 0), node, 0, false, None))
            && (b1.dirtyend > b1.dirtyoff ==>
                  && r.sent == Some(RequestedMode(b1.flags))
                  && r.ret == reply.err
                  && r.clearCommit == reply.mustCommit
                  && r.b.resid == reply.resid
                  && (NeedCommit in r.b.flags <==> reply.err == 0 && reply.committed == Unstable)
                  && (KeepsDirty(reply) ==>
                        && r.b.dirtyoff == b1.dirtyoff && r.b.dirtyend == b1.dirtyend
                        && (Paging !in b.flags ==> DelWri in r.b.flags)
                        && Inval !in r.b.flags && NoCache !in r.b.flags
                        && (Async !in b.flags ==> Eintr in r.b.flags)
                        && r.node == node)
                  && (!KeepsDirty(reply) ==>
                        && (forall x :: !r.b.InDirty(x))
                        && (reply.err != 0 ==>
                              Error in r.b.flags && r.b.error == reply.err &&
                              r.node == node.(error := reply.err, flags := node.flags + {WriteErr}))
                        && (reply.err == 0 ==> r.node == node)))
    ensures r.b.validoff == b.validoff && r.b.validend == b.validend && r.b.bcount == b.bcount
  {
    var b1 := ClipDirty(b, node.size);
    if b1.dirtyend > b1.dirtyoff then
      var mode := RequestedMode(b1.flags);
      var err := reply.err;
      var f1 := if err == 0 && reply.committed == Unstable then
                  b1.flags + {NeedCommit} +
                  (if b1.dirtyoff == 0 && b1.dirtyend == b1.bufsize then {ClusterOk} else {})
                else b1.flags - {NeedCommit};
      if KeepsDirty(reply) then
        var f2 := f1 - {Inval, NoCache};
        var f3 := if Paging !in f2 then f2 + {DelWri} - {Done} else f2;
        var f4 := if Async !in f3 then f3 + {Eintr} else f3;
        WriteResult(b1.(flags := f4, resid := reply.resid), node, err, reply.mustCommit, Some(mode))
      else if err != 0 then
        WriteResult(b1.(flags := f1 + {Error}, error := err, dirtyoff := 0, dirtyend := 0,
                        resid := reply.resid),
                    node.(error := err, flags := node.flags + {WriteErr}),
                    err, reply.mustCommit, Some(mode))
      else
        WriteResult(b1.(flags := f1, dirtyoff := 0, dirtyend := 0, resid := reply.resid),
                    node, err, reply.mustCommit, Some(mode))
    else
      WriteResult(b1.(resid := 0), node, 0, false, None)
  }

  /** A failed asynchronous write latches its error on the node; the next
      nfs_write returns exactly that error and clears the latch, and the
      write after it is admitted. */
  lemma WriteErrorReportedOnce(b: Buf, node: Node, reply: WriteReply)
    requires WriteErr !in node.flags
    requires reply.err != 0 && reply.err != EINTR
    requires ClipDirty(b, node.size).dirtyend > ClipDirty(b, node.size).dirtyoff
    ensures var n1 := WriteDone(b, node, reply).node;
            var e1 := NfsWrite.WriteEntryCheck(VReg, n1);
            && e1.Reject? && e1.err == reply.err
            && NfsWrite.WriteEntryCheck(VReg, e1.node) == NfsWrite.Admit(node.(error := reply.err))
  {
  }
}

=== FILE: nfs_pages.dfy ===
/**
 * The paging adapter: nfs_getpages reads a run of pages with one read
 * RPC and marks each page valid as far as the transfer reached;
 * nfs_putpages writes a run of pages with one write RPC and reports, per
 * page, whether it was written.
 */
module NfsPages {
  import opened NfsBuf

  datatype PagerStatus = PagerOk | PagerAgain | PagerError

  /** What nfs_getpages does to a page's validity. */
  datatype PageMark =
    | Untouched           // total failure: validity left alone
    | AllValid            // whole page valid and clean
    | ValidUpTo(nvalid: int)  // vm_page_set_validclean(m, 0, nvalid)

  /** btoc: pages needed to hold count bytes. */
  function Btoc(count: int): int {
    (count + PAGE_SIZE - 1) / PAGE_SIZE
  }

  /** round_page: count rounded up to a page multiple. */
  function RoundPage(x: int): int {
    (x + PAGE_SIZE - 1) / PAGE_SIZE * PAGE_SIZE
  }

  /** Valid length nfs_getpages gives page i when `size` bytes arrived:
      `((size + DEV_BSIZE - 1) - toff) & ~(DEV_BSIZE - 1)`. */
  function PartialValid(size: int, i: int): int {
    RoundUpDev(size - i * PAGE_SIZE)
  }

  /** One read RPC of `count` bytes returned `err` with `resid` bytes not
      transferred. On total failure (an error and nothing transferred)
      every page but the requested one is freed and the pager gets an
      error; otherwise page i is fully valid when the transfer covered it,
      and valid up to the next DEV_BSIZE boundary past the data when it
      covered part of it; after an error with partial data the pages
      other than the requested one are freed. */
  method GetPages(count: int, reqpage: int, err: int, resid: int)
    returns (rv: PagerStatus, marks: seq<PageMark>, freed: seq<bool>)
    requires 0 <= resid <= count
    ensures |marks| == |freed| == Btoc(count)
    ensures err != 0 && resid == count ==>
              rv == PagerError &&
              forall i :: 0 <= i < |marks| ==> marks[i] == Untouched && (freed[i] <==> i != reqpage)
    ensures !(err != 0 && resid == count) ==> rv == PagerOk
    ensures !(err != 0 && resid == count) ==>
              forall i :: 0 <= i < |marks| ==>
                && (marks[i] == AllValid <==> (i + 1) * PAGE_SIZE <= count - resid)
                && (freed[i] <==> err != 0 && i != reqpage)
    ensures !(err != 0 && resid == count) ==>
              forall i :: 0 <= i < |marks| && i * PAGE_SIZE < count - resid < (i + 1) * PAGE_SIZE ==>
                marks[i].ValidUpTo? &&
                0 < marks[i].nvalid <= PAGE_SIZE && marks[i].nvalid % DEV_BSIZE == 0 &&
                count - resid <= i * PAGE_SIZE + marks[i].nvalid < count - resid + DEV_BSIZE
    ensures !(err != 0 && resid == count) ==>
              forall i :: 0 <= i < |marks| && count - resid <= i * PAGE_SIZE ==>
                marks[i].ValidUpTo? && marks[i].nvalid <= 0
  {
    var npages := Btoc(count);
    if err != 0 && resid == count {
      marks := [];
      freed := [];
      var i := 0;
      while i < npages
        invariant 0 <= i <= npages
        invariant |marks| == |freed| == i
        invariant forall j :: 0 <= j < i ==> marks[j] == Untouched && (freed[j] <==> j != reqpage)
      {
        marks := marks + [Untouched];
        freed := freed + [i != reqpage];
        i := i + 1;
      }
      return PagerError, marks, freed;
    }
    var size := count - resid;
    marks := [];
    freed := [];
    var i := 0;
    var toff := 0;
    while i < npages
      invariant 0 <= i <= npages && toff == i * PAGE_SIZE
      invariant |marks| == |freed| == i
      invariant forall j :: 0 <= j < i ==>
                  && (marks[j] == AllValid <==> (j + 1) * PAGE_SIZE <= size)
                  && ((j + 1) * PAGE_SIZE > size ==> marks[j] == ValidUpTo(PartialValid(size, j)))
                  && (freed[j] <==> err != 0 && j != reqpage)
    {
      var nextoff := toff + PAGE_SIZE;
      var m := if nextoff <= size then AllValid else ValidUpTo(RoundUpDev(size - toff));
      marks := marks + [m];
      freed := freed + [err != 0 && i != reqpage];
      i := i + 1;
      toff := nextoff;
    }
    forall j | 0 <= j < |marks| && j * PAGE_SIZE < size < (j + 1) * PAGE_SIZE
      ensures 0 < PartialValid(size, j) <= PAGE_SIZE
    {
      MultipleBelow(PartialValid(size, j), PAGE_SIZE);
    }
    forall j | 0 <= j < |marks| && size <= j * PAGE_SIZE
      ensures PartialValid(size, j) <= 0
    {
      MultipleBelow(PartialValid(size, j), 0);
    }
    rv := PagerOk;
  }

  /** One write RPC of `count` bytes (the stability requested follows the
      pager's sync flag) returned `err` with `resid` bytes not written.
      Every page starts as "try again"; on success exactly the pages
      holding a written byte become OK, since round_page counts a page
      that was partly written, and each of them is marked clean
      (`dirty = 0`). The pager is told the first page's status. */
  method PutPages(count: int, sync: bool, err: int, resid: int, mustCommit: bool)
    returns (rv: PagerStatus, rtvals: seq<PagerStatus>, cleaned: seq<bool>, iomode: StableHow,
             clearCommit: bool)
    requires 0 < count && 0 <= resid <= count
    ensures iomode == (if sync then FileSync else Unstable)
    ensures |rtvals| == Btoc(count)
    ensures forall i :: 0 <= i < |rtvals| ==>
              (rtvals[i] == PagerOk <==> err == 0 && i * PAGE_SIZE < count - resid) &&
              (rtvals[i] != PagerOk ==> rtvals[i] == PagerAgain)
    ensures err == 0 && resid == 0 ==> forall i :: 0 <= i < |rtvals| ==> rtvals[i] == PagerOk
    ensures |cleaned| == |rtvals| && forall i :: 0 <= i < |rtvals| ==> (cleaned[i] <==> rtvals[i] == PagerOk)
    ensures rv == rtvals[0]
    ensures clearCommit <==> err == 0 && mustCommit
  {
    var npages := Btoc(count);
    iomode := if sync then FileSync else Unstable;
    rtvals := [];
    cleaned := [];
    var i := 0;
    while i < npages
      invariant 0 <= i <= npages && |rtvals| == i && |cleaned| == i
      invariant forall j :: 0 <= j < i ==> rtvals[j] == PagerAgain && !cleaned[j]
    {
      rtvals := rtvals + [PagerAgain];
      cleaned := cleaned + [false];
      i := i + 1;
    }
    clearCommit := false;
    if err == 0 {
      var nwritten := RoundPage(count - resid) / PAGE_SIZE;
      assert nwritten <= npages;
      i := 0;
      while i < nwritten
        invariant 0 <= i <= nwritten && |rtvals| == npages && |cleaned| == npages
        invariant forall j :: 0 <= j < npages ==> rtvals[j] == (if j < i then PagerOk else PagerAgain)
        invariant forall j :: 0 <= j < npages ==> (cleaned[j] <==> j < i)
      {
        rtvals := rtvals[i := PagerOk];
        cleaned := cleaned[i := true];
        i := i + 1;
      }
      assert forall j :: 0 <= j < npages ==> (j < nwritten <==> j * PAGE_SIZE < count - resid);
      clearCommit := mustCommit;
    }
    rv := rtvals[0];
  }
}

=== FILE: nfs_read.dfy ===
/**
 * The regular-file read path of nfs_bioread: sizing the buffer for a
 * block, choosing the read-ahead blocks, and deciding how many bytes of
 * a cached block may be copied out, or that the block must be written
 * back and fetched again first.
 */
module NfsRead {
  import opened NfsBuf

  /** Size the read path asks nfs_getcacheblk for: a whole block, except
      that the block holding end-of-file is trimmed to the bytes before
      end-of-file rounded up to DEV_BSIZE. */
  function ReadBufSize(lbn: int, biosize: int, nsize: int): (r: int)
    requires lbn >= 0 && ValidBiosize(biosize)
    ensures 0 < r <= biosize && r % DEV_BSIZE == 0
    ensures lbn * biosize < nsize ==> r >= Min(biosize, nsize - lbn * biosize)
    ensures lbn * biosize < nsize < lbn * biosize + biosize ==>
              r < nsize - lbn * biosize + DEV_BSIZE
    ensures !(lbn * biosize < nsize < lbn * biosize + biosize) ==> r == biosize
  {
    var start := lbn * biosize;
    assert (lbn + 1) * biosize == start + biosize;
    if (lbn + 1) * biosize > nsize && (lbn + 1) * biosize - nsize < biosize then
      var r := RoundUpDev(nsize - start);
      MultipleBelow(r, biosize);
      r
    else
      biosize
  }

  /** Bytes of the request [offset, offset + resid) that lie both in the
      buffer (from byte `on` to `bufsize`) and before end-of-file: the copy
      length before the valid range is consulted. It is negative when the
      request starts beyond end-of-file. */
  function Wanted(bufsize: int, on: int, resid: int, nsize: int, offset: int): int {
    var n := if bufsize > on then Min(bufsize - on, resid) else 0;
    if nsize - offset < n then nsize - offset else n
  }

  /** What nfs_bioread does with the block it holds. */
  datatype ReadStep =
    | CopyOut(n: int)              // copy n bytes; when n <= 0 nothing is copied and the loop ends
    | FlushAndRefetch(b: Buf)      // wanted bytes not valid and block dirty: write back, retry
    | ReleaseAndRefetch(b: Buf)    // wanted bytes not valid and block clean: release, retry
    | Panic                        // dirty block without B_DELWRI ("nfsbioread")

  /** The copy-length computation and the "range not valid, so flush and
      re-fetch" rule for one block. `notReadin` is true when the block came
      from the cache rather than from a read just issued. */
  function ReadCopyStep(b: Buf, bufsize: int, on: int, offset: int, resid: int,
                        nsize: int, notReadin: bool): (r: ReadStep)
    requires 0 <= on && 0 < resid && 0 <= offset
    ensures r.CopyOut? && r.n > 0 ==>
              && on + r.n <= bufsize
              && r.n <= resid
              && offset + r.n <= nsize
              && on + r.n <= b.validend
              && (notReadin ==> b.validoff <= on)
    ensures r.CopyOut? ==> r.n <= Wanted(bufsize, on, resid, nsize, offset)
    ensures r.CopyOut? && notReadin ==> r.n == Wanted(bufsize, on, resid, nsize, offset)
    // a block just read is copied up to the end of its valid range
    ensures r.CopyOut? ==> r.n == Min(Wanted(bufsize, on, resid, nsize, offset), Max(b.validend - on, 0))
    ensures !r.CopyOut? <==>
              (var w := Wanted(bufsize, on, resid, nsize, offset);
               notReadin && w > 0 && (on < b.validoff || on + w > b.validend))
    ensures r.Panic? <==> !r.CopyOut? && b.IsDirty() && DelWri !in b.flags
    ensures r.FlushAndRefetch? ==> b.IsDirty() && r.b == b.(flags := b.flags + {NoCache, InvalAfterWrite})
    ensures r.ReleaseAndRefetch? ==> !b.IsDirty() && r.b == b.(flags := b.flags + {NoCache, InvalAfterWrite})
    ensures offset >= nsize ==> r.CopyOut? && r.n <= 0
  {
    CopyStep(b, on, Wanted(bufsize, on, resid, nsize, offset), notReadin)
  }

  /** The step for a copy length n already clipped to the request and to
      end-of-file: refetch when the wanted bytes are not all valid,
      otherwise clip n to the valid range. */
  function CopyStep(b: Buf, on: int, n: int, notReadin: bool): ReadStep {
    if notReadin && n > 0 && (on < b.validoff || on + n > b.validend) then
      var b' := b.(flags := b.flags + {NoCache, InvalAfterWrite});
      if b.dirtyend > 0 then
        if DelWri !in b.flags then Panic else FlushAndRefetch(b')
      else
        ReleaseAndRefetch(b')
    else
      var diff := if on >= b.validend then 0 else b.validend - on;
      CopyOut(if diff < n then diff else n)
  }

  /** Wanted with the store into `int n` written out: `diff` is an
      `off_t`, so the comparison with n is exact, but when it is smaller
      the distance to end-of-file is assigned to the `int` n. Only a
      request starting more than 2^31 bytes past end-of-file notices
      (`uio_resid` is an `int` too, so it never exceeds INT_MAX). */
  function WantedAsWritten(bufsize: int, on: int, resid: int, nsize: int, offset: int): (r: int)
    ensures nsize - offset >= INT_MIN && resid <= INT_MAX ==> r == Wanted(bufsize, on, resid, nsize, offset)
    ensures r != Wanted(bufsize, on, resid, nsize, offset) ==> INT_MIN <= r <= INT_MAX
  {
    var n := if bufsize > on then Min(bufsize - on, resid) else 0;
    var diff := nsize - offset;
    if diff < n then ToInt32(diff) else n
  }

  /** ReadCopyStep with the `int` store of the end-of-file clip. */
  function ReadCopyStepAsWritten(b: Buf, bufsize: int, on: int, offset: int, resid: int,
                                 nsize: int, notReadin: bool): (r: ReadStep)
    requires 0 <= on && 0 < resid && 0 <= offset
    ensures nsize - offset >= INT_MIN && resid <= INT_MAX ==>
              r == ReadCopyStep(b, bufsize, on, offset, resid, nsize, notReadin)
  {
    CopyStep(b, on, WantedAsWritten(bufsize, on, resid, nsize, offset), notReadin)
  }

  /** Where the two differ: an empty file read 2^32 - 10 bytes in, on a
      cached block whose last 10 bytes are marked valid. The full-width
      distance copies nothing; the `int` store turns it into 10. */
  lemma FarPastEndWraps(b: Buf)
    requires b.validoff == 0 && b.validend == 8192
    ensures var r := ReadCopyStep(b, 8192, 8182, 0x1_0000_0000 - 10, 100, 0, true);
            r.CopyOut? && r.n <= 0
    ensures ReadCopyStepAsWritten(b, 8192, 8182, 0x1_0000_0000 - 10, 100, 0, true) == CopyOut(10)
  {
  }

  /** Blocks nfs_bioread starts reading ahead after block lbn: at most
      `readahead` of them, consecutive, each starting before end-of-file,
      and none at all without async daemons. */
  function ReadAheadBlocks(lbn: int, readahead: int, biosize: int, nsize: int,
                           numasync: int): (r: seq<int>)
    requires biosize > 0
    ensures |r| <= Max(readahead, 0)
    ensures forall i :: 0 <= i < |r| ==> r[i] == lbn + 1 + i && r[i] * biosize < nsize
    ensures numasync > 0 && 0 < readahead && |r| < readahead ==> (lbn + 1 + |r|) * biosize >= nsize
    ensures numasync <= 0 ==> r == []
  {
    if numasync > 0 && readahead > 0 then ReadAheadFrom(lbn + 1, readahead, biosize, nsize) else []
  }

  /** The read-ahead loop from block `next` with `count` blocks left. */
  function ReadAheadFrom(next: int, count: int, biosize: int, nsize: int): (r: seq<int>)
    requires biosize > 0
    ensures |r| <= Max(count, 0)
    ensures forall i :: 0 <= i < |r| ==> r[i] == next + i && r[i] * biosize < nsize
    ensures 0 < count && |r| < count ==> (next + |r|) * biosize >= nsize
    decreases count
  {
    if count <= 0 || next * biosize >= nsize then []
    else [next] + ReadAheadFrom(next + 1, count - 1, biosize, nsize)
  }

  /** What one read-ahead candidate gets. */
  datatype ReadAhead = ReadAhead(started: bool, b: Buf)

  /** One read-ahead candidate: a block already in core is left alone; a
      block that is cached or holds a delayed write is only released; an
      empty block is marked for an async read, and marked invalid if
      nfs_asyncio refuses it. */
  function ReadAheadBlock(incore: bool, b: Buf, asyncRefused: bool): (r: ReadAhead)
    ensures r.started ==> !incore && Cache !in b.flags && DelWri !in b.flags
    ensures DelWri in b.flags || Cache in b.flags || incore ==> r == ReadAhead(false, b)
    ensures Inval in r.b.flags && Inval !in b.flags ==> r.started && asyncRefused
    ensures !incore && Cache !in b.flags && DelWri !in b.flags ==>
              r.started && Async in r.b.flags && Done !in r.b.flags
    ensures r.started && asyncRefused ==> Inval in r.b.flags && Error in r.b.flags
    ensures r.started && !asyncRefused ==> Async in r.b.flags && (Inval in r.b.flags <==> Inval in b.flags)
  {
    if incore || Cache in b.flags || DelWri in b.flags then ReadAhead(false, b)
    else
      var b' := b.(flags := b.flags + {Async} - {Done});
      if asyncRefused then ReadAhead(true, b'.(flags := b'.flags + {Inval, Error}))
      else ReadAhead(true, b')
  }
}

=== FILE: nfs_write.dfy ===
/**
 * The regular-file write path of nfs_write: the checks on entry, the
 * split of a request into per-block pieces, and for each block the file
 * size extension, the flush of a non-contiguous old dirty range, the
 * merge of the new dirty range into the dirty and valid ranges, and the
 * choice between a synchronous, an asynchronous and a delayed write.
 */
module NfsWrite {
  import opened NfsBuf
  import opened Results
  import NfsRead

  /** Outcome of the checks at the top of nfs_write. */
  datatype WriteEntry = Reject(err: int, node: Node) | Admit(node: Node)

  /** Only regular files are written; a write error latched by an earlier
      asynchronous write is returned once, clearing the latch. */
  function WriteEntryCheck(vtype: VType, node: Node): (r: WriteEntry)
    ensures vtype != VReg ==> r == Reject(EIO, node)
    ensures vtype == VReg && WriteErr in node.flags ==>
              r == Reject(node.error, node.(flags := node.flags - {WriteErr}))
    ensures vtype == VReg && WriteErr !in node.flags ==> r == Admit(node)
    ensures WriteErr !in r.node.flags || r.node == node
  {
    if vtype != VReg then Reject(EIO, node)
    else if WriteErr in node.flags then Reject(node.error, node.(flags := node.flags - {WriteErr}))
    else Admit(node)
  }

  /** Argument checks of nfs_write, in the source's order. `rlimit` is the
      writing process's file-size limit, None when there is no process.
      Success(false) means "nothing to write, return 0". */
  function WriteArgsCheck(offset: int, resid: int, maxfilesize: int, rlimit: Option<int>): (r: Result<bool, int>)
    ensures r.Success? <==>
              offset >= 0 && offset + resid <= maxfilesize &&
              (resid == 0 || rlimit.None? || offset + resid <= rlimit.value)
    ensures r.Success? ==> (r.value <==> resid != 0)
    ensures r.Failure? ==> r.error == (if offset < 0 then EINVAL else EFBIG)
  {
    if offset < 0 then Failure(EINVAL)
    else if offset + resid > maxfilesize then Failure(EFBIG)
    else if resid == 0 then Success(false)
    else if rlimit.Some? && offset + resid > rlimit.value then Failure(EFBIG)
    else Success(true)
  }

  /** One iteration's piece of the request: block lbn, byte `on` within it,
      n bytes. */
  datatype Chunk = Chunk(start: int, lbn: int, on: int, n: int)

  /** The piece nfs_write handles next for a request at offset with resid
      bytes left. */
  function ChunkAt(offset: int, resid: int, biosize: int): (c: Chunk)
    requires offset >= 0 && resid > 0 && biosize > 0
    ensures c.start == offset == c.lbn * biosize + c.on
    ensures 0 <= c.on && 0 < c.n <= resid && c.on + c.n <= biosize
    ensures c.n < resid ==> c.on + c.n == biosize
  {
    Chunk(offset, offset / biosize, offset % biosize, Min(biosize - offset % biosize, resid))
  }

  /** Piece c is not empty and lies inside block c.lbn, starting `on`
      bytes into it. */
  predicate InBlock(c: Chunk, biosize: int) {
    c.start == c.lbn * biosize + c.on && 0 <= c.on && 0 < c.n && c.on + c.n <= biosize
  }

  function SumLengths(cs: seq<Chunk>): int {
    if |cs| == 0 then 0 else SumLengths(cs[..|cs| - 1]) + cs[|cs| - 1].n
  }

  /** The loop structure of nfs_write when every block is written: the
      pieces tile [offset, offset + resid) in order, each inside one block,
      and every piece but the last ends exactly at a block boundary. */
  method WriteChunks(offset: int, resid: int, biosize: int) returns (cs: seq<Chunk>)
    requires offset >= 0 && resid >= 0 && biosize > 0
    ensures SumLengths(cs) == resid
    ensures |cs| > 0 ==> cs[0].start == offset
    ensures forall i :: 0 <= i < |cs| - 1 ==>
              cs[i + 1].start == cs[i].start + cs[i].n
    ensures forall i :: 0 <= i < |cs| ==> InBlock(cs[i], biosize)
    ensures forall i :: 0 <= i < |cs| - 1 ==> cs[i].on + cs[i].n == biosize
    ensures resid == 0 <==> cs == []
  {
    cs := [];
    var off := offset;
    var left := resid;
    while left > 0
      invariant 0 <= left && off == offset + SumLengths(cs) && left == resid - SumLengths(cs)
      invariant |cs| > 0 ==> cs[0].start == offset
      invariant |cs| > 0 ==> cs[|cs| - 1].start + cs[|cs| - 1].n == off
      invariant forall i :: 0 <= i < |cs| - 1 ==>
                  cs[i + 1].start == cs[i].start + cs[i].n
      invariant forall i :: 0 <= i < |cs| ==> InBlock(cs[i], biosize)
      invariant forall i :: 0 <= i < |cs| - 1 ==> cs[i].on + cs[i].n == biosize
      invariant left > 0 && |cs| > 0 ==> cs[|cs| - 1].on + cs[|cs| - 1].n == biosize
      invariant cs == [] <==> left == resid
      decreases left
    {
      var c := ChunkAt(off, left, biosize);
      assert InBlock(c, biosize);
      assert (cs + [c])[..|cs + [c]| - 1] == cs;
      assert SumLengths(cs + [c]) == SumLengths(cs) + c.n;
      cs := cs + [c];
      off := off + c.n;
      left := left - c.n;
    }
  }

  /** Buffer size nfs_write asks for: as on the read path, but the block is
      known to start before end-of-file because the size was extended. */
  function WriteBufSize(lbn: int, biosize: int, nsize: int): int
    requires ValidBiosize(biosize)
  {
    if (lbn + 1) * biosize > nsize then RoundUpDev(nsize - lbn * biosize) else biosize
  }

  /** Both paths size a block the same way once the block starts before
      end-of-file. */
  lemma WriteBufSizeMatchesRead(lbn: int, biosize: int, nsize: int)
    requires lbn >= 0 && ValidBiosize(biosize) && lbn * biosize < nsize
    ensures WriteBufSize(lbn, biosize, nsize) == NfsRead.ReadBufSize(lbn, biosize, nsize)
    ensures 0 < WriteBufSize(lbn, biosize, nsize) <= biosize
  {
    assert (lbn + 1) * biosize == lbn * biosize + biosize;
  }

  /** File size after writing n bytes at offset: extended, never shrunk. */
  function ExtendSize(node: Node, offset: int, n: int): (r: Node)
    ensures r.size >= offset + n && r.size >= node.size
    ensures r.size == node.size || r.size == offset + n
    ensures offset + n > node.size ==> Modified in r.flags
    ensures r == node.(size := r.size, flags := r.flags)
    ensures r.flags == node.flags || r.flags == node.flags + {Modified}
  {
    if offset + n > node.size then node.(size := offset + n, flags := node.flags + {Modified})
    else node
  }

  /** The new range [on, on + n) touches or overlaps the old dirty range,
      or the buffer has none; otherwise the old range must be pushed first. */
  predicate Contiguous(b: Buf, on: int, n: int) {
    !(b.dirtyend > 0 && (on > b.dirtyend || on + n < b.dirtyoff))
  }

  /** Record bytes [on, on + n), just copied in, as dirty and valid. */
  function MergeWrite(b: Buf, on: int, n: int): (r: Buf)
    requires 0 <= on && 0 < n && Contiguous(b, on, n)
    ensures r.dirtyoff < r.dirtyend && r.validoff <= r.validend
    ensures forall x :: r.InDirty(x) <==> b.InDirty(x) || on <= x < on + n
    ensures forall x :: r.InDirty(x) ==> r.InValid(x)
    ensures b.validoff <= b.validend ==> forall x :: r.InValid(x) ==> b.InValid(x) || r.InDirty(x)
    ensures b.validend == 0 || b.validend < r.dirtyoff || b.validoff > r.dirtyend ==>
              r.validoff == r.dirtyoff && r.validend == r.dirtyend
    ensures b.validoff <= b.validend &&
            !(b.validend == 0 || b.validend < r.dirtyoff || b.validoff > r.dirtyend) ==>
              forall x :: r.InValid(x) <==> b.InValid(x) || r.InDirty(x)
    ensures r == b.(validoff := r.validoff, validend := r.validend,
                    dirtyoff := r.dirtyoff, dirtyend := r.dirtyend,
                    flags := b.flags - {NeedCommit})
  {
    var doff := if b.dirtyend > 0 then Min(on, b.dirtyoff) else on;
    var dend := if b.dirtyend > 0 then Max(on + n, b.dirtyend) else on + n;
    var voff := if b.validend == 0 || b.validend < doff || b.validoff > dend then doff
                else Min(b.validoff, doff);
    var vend := if b.validend == 0 || b.validend < doff || b.validoff > dend then dend
                else Max(b.validend, dend);
    b.(validoff := voff, validend := vend, dirtyoff := doff, dirtyend := dend,
       flags := b.flags - {NeedCommit})
  }

  /** How a block is pushed once written into. */
  datatype Disposition = SyncWrite | AsyncWrite | DelayedWrite

  /** What one pass through the block loop of nfs_write yields. */
  datatype WriteStep =
    | FlushOld(node: Node, b: Buf)                 // push the old dirty range, then retry the block
    | CopyFailed(err: int, node: Node, b: Buf)     // uiomove failed: B_ERROR, release, return err
    | Written(node: Node, b: Buf, disp: Disposition)

  /** One pass through the block loop for n bytes at byte `on` of the block
      held in b (so at file offset b.blkno * DEV_BSIZE + on), given the
      result of copying the data in. `ioSync`/`ioInval` are IO_SYNC and
      IO_INVAL, `nqnfs` is a lease mount. */
  function WriteBlock(node: Node, b: Buf, on: int, n: int, biosize: int,
                      ioSync: bool, ioInval: bool, nqnfs: bool, copyErr: int): (r: WriteStep)
    requires 0 <= on && 0 < n && on + n <= biosize
    ensures r.node == node.(size := Max(node.size, b.blkno * DEV_BSIZE + on + n),
                            flags := node.flags + {Modified})
    ensures var old' := ClipDirty(b, r.node.size);
            && (r.FlushOld? <==> !Contiguous(old', on, n))
            && (r.FlushOld? ==> r.b == old' && old'.IsDirty())
            && (r.CopyFailed? ==> r.err == copyErr && copyErr != 0 &&
                                  r.b == old'.(flags := old'.flags - {NeedCommit} + {Error}))
            && (r.Written? ==>
                  copyErr == 0 &&
                  (forall x :: r.b.InDirty(x) <==> old'.InDirty(x) || on <= x < on + n))
    ensures r.Written? ==> forall x :: r.b.InDirty(x) ==> r.b.InValid(x)
    ensures r.Written? ==> r.b.dirtyoff < r.b.dirtyend &&
                           r.b.blkno * DEV_BSIZE + r.b.dirtyend <= r.node.size
    ensures r.Written? ==> NeedCommit !in r.b.flags
    ensures r.Written? ==>
              && (r.disp == SyncWrite <==> NonCache in node.flags || ioSync)
              && (r.disp == AsyncWrite <==> !(NonCache in node.flags || ioSync) &&
                                            on + n == biosize && !nqnfs)
              && (Async in r.b.flags <==> Async in b.flags || r.disp == AsyncWrite)
              && (Inval in r.b.flags <==> Inval in b.flags || (r.disp == SyncWrite && ioInval))
  {
    var node' := ExtendSize(node, b.blkno * DEV_BSIZE + on, n).(flags := node.flags + {Modified});
    var b1 := ClipDirty(b, node'.size);
    if !Contiguous(b1, on, n) then
      FlushOld(node', b1)
    else if copyErr != 0 then
      CopyFailed(copyErr, node', b1.(flags := b1.flags - {NeedCommit} + {Error}))
    else
      var b2 := MergeWrite(b1, on, n);
      if NonCache in node.flags || ioSync then
        Written(node', if ioInval then b2.(flags := b2.flags + {Inval}) else b2, SyncWrite)
      else if on + n == biosize && !nqnfs then
        Written(node', b2.(flags := b2.flags + {Async}), AsyncWrite)
      else
        Written(node', b2, DelayedWrite)
  }

  /** Two overlapping or adjacent writes into a clean buffer leave one
      dirty range spanning both, e.g. [0, 100) then [50, 150) gives [0, 150). */
  lemma OverlappingWritesMerge(b: Buf, a1: int, n1: int, a2: int, n2: int)
    requires !b.IsDirty() && 0 <= a1 && 0 < n1 && 0 <= a2 && 0 < n2
    requires a2 <= a1 + n1 && a1 <= a2 + n2
    ensures Contiguous(MergeWrite(b, a1, n1), a2, n2)
    ensures var r := MergeWrite(MergeWrite(b, a1, n1), a2, n2);
            r.dirtyoff == Min(a1, a2) && r.dirtyend == Max(a1 + n1, a2 + n2)
  {
  }
}

=== FILE: num_text.dfy ===
/**
 * The numeric text conversions the device-name code relies on: a
 * digit-prefix model of strtol for base 10 and base 0, and the `%d`
 * conversion of sprintf.
 */
module NumText {

  predicate IsDigitIn(c: char, base: int) {
    if base == 8 then '0' <= c <= '7'
    else if base == 16 then '0' <= c <= '9' || 'a' <= c <= 'f' || 'A' <= c <= 'F'
    else '0' <= c <= '9'
  }

  function DigitValue(c: char): (v: int)
    ensures IsDigitIn(c, 16) ==> 0 <= v < 16
    ensures '0' <= c <= '9' ==> v == c as int - '0' as int
  {
    if '0' <= c <= '9' then c as int - '0' as int
    else if 'a' <= c <= 'f' then c as int - 'a' as int + 10
    else if 'A' <= c <= 'F' then c as int - 'A' as int + 10
    else -1
  }

  /** Length of the longest prefix of s made of digits of the base. */
  function RunLength(s: string, base: int): (n: nat)
    ensures n <= |s|
    ensures forall i :: 0 <= i < n ==> IsDigitIn(s[i], base)
    ensures n < |s| ==> !IsDigitIn(s[n], base)
  {
    if |s| == 0 || !IsDigitIn(s[0], base) then 0
    else 1 + RunLength(s[1..], base)
  }

  /** The value of a string of digits read most significant first. */
  function ValueOf(s: string, base: int): int
  {
    if |s| == 0 then 0
    else ValueOf(s[..|s| - 1], base) * base + DigitValue(s[|s| - 1])
  }

  lemma {:induction false} ValueOfNonNegative(s: string, base: int)
    requires base > 0 && forall i :: 0 <= i < |s| ==> IsDigitIn(s[i], base)
    ensures ValueOf(s, base) >= 0
  {
    if |s| > 0 {
      var p := s[..|s| - 1];
      assert forall i :: 0 <= i < |p| ==> IsDigitIn(p[i], base) by {
        forall i | 0 <= i < |p| ensures IsDigitIn(p[i], base) {
          assert p[i] == s[i];
        }
      }
      ValueOfNonNegative(p, base);
      assert DigitValue(s[|s| - 1]) >= 0;
    }
  }

  /** What strtol reports: the value, and how many characters it consumed
      (0 when the end pointer is left at the start). */
  datatype Scan = Scan(value: int, len: nat)

  /** r is the maximal run of digits of the base starting at offset
      `from`, with its value. */
  ghost predicate ReadsRun(s: string, r: Scan, from: nat, base: int) {
    && from <= r.len <= |s|
    && (forall i :: from <= i < r.len ==> IsDigitIn(s[i], base))
    && (r.len < |s| ==> !IsDigitIn(s[r.len], base))
    && r.value == ValueOf(s[from..r.len], base)
  }

  /** `0x` or `0X` followed by a hexadecimal digit. */
  predicate HexPrefix(s: string) {
    |s| > 2 && s[0] == '0' && (s[1] == 'x' || s[1] == 'X') && IsDigitIn(s[2], 16)
  }

  /** A digit run in a fixed base, starting at offset `from`. */
  function ScanRun(s: string, from: nat, base: int): (r: Scan)
    requires from <= |s| && (base == 8 || base == 10 || base == 16)
    ensures ReadsRun(s, r, from, base)
    ensures r.value >= 0
  {
    var n := RunLength(s[from..], base);
    var digits := s[from..from + n];
    assert forall i :: 0 <= i < |digits| ==> IsDigitIn(digits[i], base) by {
      forall i | 0 <= i < |digits| ensures IsDigitIn(digits[i], base) {
        assert digits[i] == s[from..][i];
      }
    }
    ValueOfNonNegative(digits, base);
    assert n < |s[from..]| ==> s[from + n] == s[from..][n];
    Scan(ValueOf(digits, base), from + n)
  }

  /** strtol(s, &end, base) for base 10 or 0, without leading white space
      or sign. Base 0 reads `0x` followed by a hexadecimal digit as
      hexadecimal, another leading `0` as octal, and anything else as
      decimal; in every case the whole digit run is consumed. */
  function Strtol(s: string, base: int): (r: Scan)
    requires base == 10 || base == 0
    ensures r.len <= |s| && r.value >= 0
    ensures r.len == 0 <==> |s| == 0 || !IsDigitIn(s[0], 10)
    ensures r.len == 0 ==> r.value == 0
    ensures base == 10 && r.len > 0 ==> ReadsRun(s, r, 0, 10)
    ensures base == 0 && HexPrefix(s) ==> r.len > 2 && ReadsRun(s, r, 2, 16)
    ensures base == 0 && r.len > 0 && !HexPrefix(s) ==>
              ReadsRun(s, r, 0, if s[0] == '0' then 8 else 10)
  {
    if |s| == 0 || !IsDigitIn(s[0], 10) then Scan(0, 0)
    else if base == 10 then ScanRun(s, 0, 10)
    else if HexPrefix(s) then
      ScanRun(s, 2, 16)
    else if s[0] == '0' then ScanRun(s, 0, 8)
    else ScanRun(s, 0, 10)
  }

  function DigitChar(d: int): (c: char)
    requires 0 <= d < 10
    ensures IsDigitIn(c, 10) && DigitValue(c) == d
  {
    ('0' as int + d) as char
  }

  /** Decimal digits of a non-negative number, without leading zeros. */
  function Digits(n: nat): (s: string)
    ensures |s| > 0
    ensures forall i :: 0 <= i < |s| ==> IsDigitIn(s[i], 10)
    ensures n > 0 ==> s[0] != '0'
    ensures n == 0 ==> s == "0"
  {
    if n < 10 then [DigitChar(n)]
    else Digits(n / 10) + [DigitChar(n % 10)]
  }

  /** `%d`: an optional minus sign followed by the decimal digits. */
  function Itoa(n: int): string {
    if n < 0 then ['-'] + Digits(-n) else Digits(n)
  }

  /** d is the canonical decimal text of m: a non-empty run of decimal
      digits whose value is m, with no leading zero unless m is 0. */
  ghost predicate DecimalOf(d: string, m: nat) {
    && |d| > 0
    && (forall i :: 0 <= i < |d| ==> IsDigitIn(d[i], 10))
    && ValueOf(d, 10) == m
    && (m > 0 ==> d[0] != '0')
  }

  /** What `%d` writes: a minus sign exactly for a negative number, then
      the canonical decimal text of the magnitude. */
  lemma ItoaMeaning(n: int)
    ensures |Itoa(n)| > 0 && (n < 0 <==> Itoa(n)[0] == '-')
    ensures n >= 0 ==> DecimalOf(Itoa(n), n)
    ensures n < 0 ==> DecimalOf(Itoa(n)[1..], -n)
  {
    if n < 0 {
      assert Itoa(n)[1..] == Digits(-n);
      DigitsMeaning(-n);
    } else {
      DigitsMeaning(n);
    }
  }

  lemma DigitsMeaning(m: nat)
    ensures DecimalOf(Digits(m), m)
  {
    DigitsValue(m);
  }

  /** Reading the digits of n back yields n. */
  lemma {:induction false} DigitsValue(n: nat)
    ensures ValueOf(Digits(n), 10) == n
  {
    if n >= 10 {
      var s := Digits(n);
      var p := Digits(n / 10);
      assert s[..|s| - 1] == p;
      DigitsValue(n / 10);
    }
  }

  /** The digit run of `s + rest` ends where s ends when rest does not start
      with a digit. */
  lemma {:induction false} RunStops(s: string, rest: string, base: int)
    requires forall i :: 0 <= i < |s| ==> IsDigitIn(s[i], base)
    requires |rest| == 0 || !IsDigitIn(rest[0], base)
    ensures RunLength(s + rest, base) == |s|
  {
    if |s| > 0 {
      assert (s + rest)[1..] == s[1..] + rest;
      RunStops(s[1..], rest, base);
    } else {
      assert s + rest == rest;
    }
  }

  /** strtol in base 10 reads back what `%d` wrote for a non-negative
      number, and stops at the first character after it. */
  lemma ScanItoa10(n: nat, rest: string)
    requires |rest| == 0 || !IsDigitIn(rest[0], 10)
    ensures Strtol(Itoa(n) + rest, 10) == Scan(n, |Itoa(n)|)
  {
    var s := Digits(n);
    RunStops(s, rest, 10);
    assert (s + rest)[0..] == s + rest;
    assert (s + rest)[0..|s|] == s;
    DigitsValue(n);
  }

  /** Base 0 reads the same number back: a positive number has no leading
      zero so it is read as decimal, and zero is a one-digit octal number
      as long as no `x` follows it to turn it into a hexadecimal prefix. */
  lemma ScanItoa0(n: nat, rest: string)
    requires |rest| == 0 || (!IsDigitIn(rest[0], 10) && rest[0] != 'x' && rest[0] != 'X')
    ensures Strtol(Itoa(n) + rest, 0) == Scan(n, |Itoa(n)|)
  {
    var s := Digits(n);
    var t := s + rest;
    if n == 0 {
      assert t == ['0'] + rest;
      assert |rest| == 0 || !IsDigitIn(rest[0], 8);
      RunStops(s, rest, 8);
      assert t[0..] == t && t[0..1] == "0";
      assert ValueOf("0", 8) == 0;
    } else {
      ScanItoa10(n, rest);
    }
  }
}

=== FILE: results.dfy ===
/** Optional values and success/failure results shared by the models. */
module Results {

  datatype Option<+T> = None | Some(value: T)

  /** An operation that either yields a value or fails with an error code.
      Usable with `:-` so that a failure short-circuits like the source's
      early `return (error)`. */
  datatype Result<+T, +E> = Success(value: T) | Failure(error: E) {

    predicate IsFailure() {
      Failure?
    }

    function PropagateFailure<U>(): Result<U, E>
      requires Failure?
    {
      Failure(error)
    }

    function Extract(): T
      requires Success?
    {
      value
    }
  }
}

=== FILE: shared_page.dfy ===
/**
 * The shared page allocator: an aligned bump allocator over the one page
 * mapped into every process, and the fill operation that copies data
 * into a freshly allocated region.
 */
module SharedPage {

  /** Size of the shared page object: one page (IDX_TO_OFF of its size). */
  const SHARED_PAGE_SIZE: int := 4096

  /** shared_page_free: offset of the first byte not yet handed out. */
  datatype Allocator = Allocator(free: int)

  ghost predicate Valid(a: Allocator) {
    0 <= a.free < SHARED_PAGE_SIZE
  }

  ghost predicate Aligned(k: int, align: int)
    requires align > 0
  {
    k % align == 0
  }

  lemma {:induction false} MulAtLeast(d: int, y: int)
    requires d >= 1 && y > 0
    ensures d * y >= y
    decreases d
  {
    if d > 1 {
      MulAtLeast(d - 1, y);
      assert d * y == (d - 1) * y + y;
    }
  }

  lemma MulMono(a: int, b: int, y: int)
    requires a <= b && y > 0
    ensures a * y <= b * y
  {
    if a < b {
      MulAtLeast(b - a, y);
      assert b * y - a * y == (b - a) * y;
    }
  }

  /** Quotient and remainder are unique (Euclidean division). */
  lemma DivModUnique(a: int, y: int, q: int, r: int)
    requires y > 0 && a == q * y + r && 0 <= r < y
    ensures a / y == q && a % y == r
  {
    var q', r' := a / y, a % y;
    assert a == q' * y + r';
    if q > q' {
      MulAtLeast(q - q', y);
    } else if q < q' {
      MulAtLeast(q' - q, y);
    }
  }

  lemma RoundUpLeast(x: int, y: int)
    requires x >= 0 && y > 0
    ensures var r := (x + y - 1) / y * y;
            Aligned(r, y) && x <= r < x + y && forall k :: x <= k < r ==> !Aligned(k, y)
  {
    var q := (x + y - 1) / y;
    DivModUnique(q * y, y, q, 0);
    assert x + y - 1 == q * y + (x + y - 1) % y;
    var r := q * y;
    forall k | x <= k < r ensures !Aligned(k, y) {
      if k % y == 0 {
        DivModUnique(k, y, k / y, 0);
        if k / y >= q {
          MulMono(q, k / y, y);
        } else {
          MulMono(k / y + 1, q, y);
        }
      }
    }
  }

  /** roundup(x, y) from sys/param.h, for x >= 0 where C's truncating
      division agrees with Dafny's: the least multiple of y at or above x. */
  function RoundUp(x: int, y: int): (r: int)
    requires x >= 0 && y > 0
    ensures Aligned(r, y) && x <= r < x + y
    ensures forall k :: x <= k < r ==> !Aligned(k, y)
  {
    RoundUpLeast(x, y);
    (x + y - 1) / y * y
  }

  datatype AllocResult = AllocResult(res: int, a: Allocator)

  /** shared_page_alloc_locked: place `size` bytes at the first offset at or
      after the free offset that is a multiple of `align`, or return -1.
      The test is `>=`, so a region that would end exactly at the end of
      the page is refused. */
  function Alloc(a: Allocator, size: int, align: int): (r: AllocResult)
    requires Valid(a) && size >= 0 && align > 0
    ensures Valid(r.a)
    ensures r.res == -1 ==> r.a == a
    ensures r.res != -1 ==>
              && Aligned(r.res, align)
              && a.free <= r.res < a.free + align
              && (forall k :: a.free <= k < r.res ==> !Aligned(k, align))
              && r.res + size < SHARED_PAGE_SIZE
              && r.a.free == r.res + size
    ensures r.res == -1 <==> RoundUp(a.free, align) + size >= SHARED_PAGE_SIZE
  {
    var res := RoundUp(a.free, align);
    if res + size >= SHARED_PAGE_SIZE then AllocResult(-1, a)
    else AllocResult(res, Allocator(res + size))
  }

  /** A request that would exactly fill the rest of an aligned page is
      refused. */
  lemma ExactFillRefused(a: Allocator, align: int)
    requires Valid(a) && align > 0 && Aligned(a.free, align)
    ensures Alloc(a, SHARED_PAGE_SIZE - a.free, align).res == -1
  {
    assert RoundUp(a.free, align) == a.free;
  }

  /** A run of allocation requests (size, align) from one state, in order. */
  datatype Request = Request(size: int, align: int)

  ghost predicate WellFormed(reqs: seq<Request>) {
    forall i :: 0 <= i < |reqs| ==> reqs[i].size >= 0 && reqs[i].align > 0
  }

  /** Results of serving the requests one after another. */
  function AllocAll(a: Allocator, reqs: seq<Request>): (r: seq<int>)
    requires Valid(a) && WellFormed(reqs)
    ensures |r| == |reqs|
    decreases |reqs|
  {
    if |reqs| == 0 then []
    else
      var first := Alloc(a, reqs[0].size, reqs[0].align);
      [first.res] + AllocAll(first.a, reqs[1..])
  }

  /** Successful allocations never overlap and come in increasing order:
      each granted region [res, res + size) lies at or after the free
      offset, inside the page, and before every later granted region. */
  lemma {:induction false} AllocAllDisjoint(a: Allocator, reqs: seq<Request>)
    requires Valid(a) && WellFormed(reqs)
    ensures var r := AllocAll(a, reqs);
            forall i :: 0 <= i < |r| && r[i] != -1 ==>
              a.free <= r[i] && r[i] + reqs[i].size < SHARED_PAGE_SIZE
    ensures var r := AllocAll(a, reqs);
            forall i, j :: 0 <= i < j < |r| && r[i] != -1 && r[j] != -1 ==>
              r[i] + reqs[i].size <= r[j]
    decreases |reqs|
  {
    if |reqs| > 0 {
      var first := Alloc(a, reqs[0].size, reqs[0].align);
      var rest := reqs[1..];
      assert WellFormed(rest) by {
        forall i | 0 <= i < |rest| ensures rest[i].size >= 0 && rest[i].align > 0 {
          assert rest[i] == reqs[i + 1];
        }
      }
      AllocAllDisjoint(first.a, rest);
      var r := AllocAll(a, reqs);
      var tail := AllocAll(first.a, rest);
      assert r == [first.res] + tail;
      forall i | 0 < i < |r| && r[i] != -1
        ensures first.a.free <= r[i] && r[i] + reqs[i].size < SHARED_PAGE_SIZE
      {
        assert r[i] == tail[i - 1] && reqs[i] == rest[i - 1];
      }
      forall i, j | 0 <= i < j < |r| && r[i] != -1 && r[j] != -1
        ensures r[i] + reqs[i].size <= r[j]
      {
        assert r[j] == tail[j - 1] && reqs[j] == rest[j - 1];
        if i > 0 {
          assert r[i] == tail[i - 1] && reqs[i] == rest[i - 1];
        }
      }
    }
  }

  /** Page contents, one byte value per offset. */
  type Page = s: seq<int> | |s| == SHARED_PAGE_SIZE witness seq(SHARED_PAGE_SIZE, _ => 0)

  /** shared_page_write: copy data to [base, base + |data|). */
  function Write(page: Page, base: int, data: seq<int>): (p: Page)
    requires 0 <= base && base + |data| <= SHARED_PAGE_SIZE
    ensures p[base..base + |data|] == data
    ensures forall k :: 0 <= k < SHARED_PAGE_SIZE && !(base <= k < base + |data|) ==> p[k] == page[k]
  {
    page[..base] + data + page[base + |data|..]
  }

  datatype FillResult = FillResult(res: int, a: Allocator, page: Page)

  /** shared_page_fill: allocate, and write the data only if the allocation
      succeeded. */
  function Fill(a: Allocator, page: Page, align: int, data: seq<int>): (r: FillResult)
    requires Valid(a) && align > 0
    ensures r.res == Alloc(a, |data|, align).res && r.a == Alloc(a, |data|, align).a
    ensures r.res == -1 ==> r.page == page && r.a == a
    ensures r.res != -1 ==>
              && r.page[r.res..r.res + |data|] == data
              && forall k :: 0 <= k < SHARED_PAGE_SIZE && !(r.res <= k < r.res + |data|) ==>
                   r.page[k] == page[k]
    ensures forall k :: 0 <= k < a.free ==> r.page[k] == page[k]
  {
    var al := Alloc(a, |data|, align);
    if al.res != -1 then FillResult(al.res, al.a, Write(page, al.res, data))
    else FillResult(al.res, al.a, page)
  }
}

=== FILE: timehands.dfy ===
/**
 * Publication of timehands to the vDSO area of the shared page: a ring
 * of VDSO_TH_NUM slots, each guarded by a generation number that is zero
 * while the slot is being rewritten, and a per-ABI generation counter
 * that skips zero when it wraps.
 */
module Timehands {

  const VDSO_TH_NUM: int := 4
  const UINT32: int := 0x1_0000_0000

  /** One vdso_timehands slot: its generation and the time data. */
  datatype Hands = Hands(gen: int, data: seq<int>)

  /** The vdso_timekeep structure on the shared page. */
  datatype Timekeep = Timekeep(enabled: int, current: int, th: seq<Hands>)

  /** The sysentvec fields that drive the rotation: sv_timekeep_curr and
      sv_timekeep_gen. */
  datatype SysVec = SysVec(curr: int, gen: int)

  /** Well-formed state: indices in range, counters 32-bit, the current
      slot carries the ABI's generation and every other slot is retired
      (generation zero). The all-zero page of a fresh registration is
      such a state. */
  ghost predicate Consistent(sv: SysVec, tk: Timekeep) {
    && |tk.th| == VDSO_TH_NUM
    && 0 <= sv.curr < VDSO_TH_NUM
    && 0 <= sv.gen < UINT32
    && tk.current == sv.curr
    && tk.th[sv.curr].gen == sv.gen
    && forall i :: 0 <= i < VDSO_TH_NUM && i != sv.curr ==> tk.th[i].gen == 0
  }

  /** `++idx >= VDSO_TH_NUM ? 0 : idx` */
  function NextSlot(idx: int): (r: int)
    requires 0 <= idx < VDSO_TH_NUM
    ensures 0 <= r < VDSO_TH_NUM && r != idx
    ensures r == (idx + 1) % VDSO_TH_NUM
  {
    if idx + 1 >= VDSO_TH_NUM then 0 else idx + 1
  }

  /** Pre-increment of a uint32 generation, replacing a wrapped 0 by 1. */
  function NextGen(g: int): (r: int)
    requires 0 <= g < UINT32
    ensures 0 < r < UINT32
    ensures g + 1 < UINT32 ==> r == g + 1
    ensures g + 1 == UINT32 ==> r == 1
  {
    var n := (g + 1) % UINT32;
    if n == 0 then 1 else n
  }

  /** Applying VDSO_TH_NUM updates brings the slot index back to where
      it started. */
  lemma NextSlotCycles(idx: int)
    requires 0 <= idx < VDSO_TH_NUM
    ensures NextSlot(NextSlot(NextSlot(NextSlot(idx)))) == idx
  {
  }

  function SetGen(tk: Timekeep, i: int, g: int): (r: Timekeep)
    requires 0 <= i < |tk.th|
    ensures r.th == tk.th[i := Hands(g, tk.th[i].data)]
    ensures r.enabled == tk.enabled && r.current == tk.current
  {
    tk.(th := tk.th[i := tk.th[i].(gen := g)])
  }

  /** The successive contents of the timekeep area after each store that
      timehands_update performs, in program order: retire the current
      slot, copy the new time data into the next slot (when the time
      counter supports user-mode reads), publish `enabled`, publish the
      next slot's generation, and finally point tk_current at it. The
      first element is the state before the update. */
  function UpdateTrace(sv: SysVec, tk: Timekeep, enabled: int, data: seq<int>): (t: seq<Timekeep>)
    requires Consistent(sv, tk)
    ensures |t| == 6 && t[0] == tk
    ensures forall k :: 0 <= k < |t| ==> |t[k].th| == VDSO_TH_NUM
  {
    var idx := NextSlot(sv.curr);
    var gen := NextGen(sv.gen);
    var s1 := SetGen(tk, sv.curr, 0);
    var s2 := if enabled != 0 then s1.(th := s1.th[idx := Hands(0, data)]) else s1;
    var s3 := s2.(enabled := enabled);
    var s4 := SetGen(s3, idx, gen);
    var s5 := s4.(current := idx);
    [tk, s1, s2, s3, s4, s5]
  }

  /** timehands_update: the new sysentvec counters and the final contents
      of the timekeep area. */
  function Update(sv: SysVec, tk: Timekeep, enabled: int, data: seq<int>): (r: (SysVec, Timekeep))
    requires Consistent(sv, tk)
    ensures Consistent(r.0, r.1)
    ensures r.0.curr == NextSlot(sv.curr) && r.0.gen == NextGen(sv.gen)
    ensures r.1.current == r.0.curr && r.1.enabled == enabled
    ensures r.1.th[r.0.curr].gen != 0
    ensures enabled != 0 ==> r.1.th[r.0.curr].data == data
    ensures enabled == 0 ==> r.1.th[r.0.curr].data == tk.th[r.0.curr].data
    ensures forall i :: 0 <= i < VDSO_TH_NUM && i != r.0.curr ==> r.1.th[i].data == tk.th[i].data
  {
    var t := UpdateTrace(sv, tk, enabled, data);
    (SysVec(NextSlot(sv.curr), NextGen(sv.gen)), t[5])
  }

  /** One store is safe for lock-free readers when it changes the time
      data of a slot only while that slot's generation is zero both
      before and after the store. */
  ghost predicate SafeStore(before: Timekeep, after: Timekeep) {
    && |before.th| == VDSO_TH_NUM && |after.th| == VDSO_TH_NUM
    && forall i :: 0 <= i < VDSO_TH_NUM && after.th[i].data != before.th[i].data ==>
         before.th[i].gen == 0 && after.th[i].gen == 0
  }

  /** The protocol a lock-free reader relies on: every store of the update
      is safe, so a reader that sees the same nonzero generation before
      and after copying a slot has copied data that was not being
      rewritten. */
  lemma UpdateIsSeqlock(sv: SysVec, tk: Timekeep, enabled: int, data: seq<int>)
    requires Consistent(sv, tk)
    ensures var t := UpdateTrace(sv, tk, enabled, data);
            && SafeStore(t[0], t[1]) && SafeStore(t[1], t[2]) && SafeStore(t[2], t[3])
            && SafeStore(t[3], t[4]) && SafeStore(t[4], t[5])
  {
    assert tk.th[NextSlot(sv.curr)].gen == 0;
  }

  /** A reader following tk_current never lands on a retired slot once the
      update has completed, and at every intermediate store at most one
      slot carries a nonzero generation. */
  lemma {:induction false} AtMostOnePublished(sv: SysVec, tk: Timekeep, enabled: int, data: seq<int>)
    requires Consistent(sv, tk)
    ensures var t := UpdateTrace(sv, tk, enabled, data);
            forall k, i, j :: 0 <= k < 6 && 0 <= i < j < VDSO_TH_NUM ==>
              t[k].th[i].gen == 0 || t[k].th[j].gen == 0
  {
    var t := UpdateTrace(sv, tk, enabled, data);
    var idx := NextSlot(sv.curr);
    forall k, i, j | 0 <= k < 6 && 0 <= i < j < VDSO_TH_NUM
      ensures t[k].th[i].gen == 0 || t[k].th[j].gen == 0
    {
      if k <= 3 {
        assert forall m :: 0 <= m < VDSO_TH_NUM && m != sv.curr ==> t[k].th[m].gen == 0;
      } else {
        assert forall m :: 0 <= m < VDSO_TH_NUM && m != idx ==> t[k].th[m].gen == 0;
      }
    }
  }

  /** timekeep_push_vdso for one ABI: nothing happens until the ABI has
      been given a timekeep area (sv_timekeep_base != 0). */
  function Push(sv: SysVec, base: int, tk: Timekeep, enabled: int, data: seq<int>): (r: (SysVec, Timekeep))
    requires Consistent(sv, tk)
    ensures Consistent(r.0, r.1)
    ensures base == 0 ==> r == (sv, tk)
    ensures base != 0 ==> r.0.gen != 0 && r.1.current == NextSlot(sv.curr)
  {
    if base != 0 then Update(sv, tk, enabled, data) else (sv, tk)
  }
}
